=== FILE: README.md ===
# ExifGPSReader in Dafny

A model of `ExifGPSReader.read_gps` and the decoders it calls. The reader takes a JPEG byte stream and returns the GPS fields of its EXIF data. The fields are latitude and longitude with their references, altitude with its reference, the timestamp, and the direction with its reference. They come back as a map from field name to value.

The stream is a byte sequence. The reader's `read`, `seek` and `tell` become positions in that sequence. The model follows the reader's four phases:

- **Segment walk** (`Segments`). Checks the start-of-image marker FF D8. Skips an optional APP0 segment by its big-endian length. Checks the APP1 marker FF E1. Records the end of APP1 (the position of its length field plus the length). Skips the six-byte "Exif\0\0" opener, records the TIFF header origin, and reads the byte order from the header: "II*\0" is Intel (little-endian), "MM\0*" is Motorola (big-endian).
- **Pointer scan and directory walk** (`Directory`). Reads non-overlapping 2-byte windows from just after the TIFF header until one equals the pointer tag bytes 88 25, or the end of APP1 is reached. Then skips 6 bytes, reads the 4-byte GPS directory offset and the 2-byte entry count, and walks the 12-byte entries. Recognised tags (1-7, 16, 17) whose value fits in the 4-byte field are decoded at once. Longer ones are deferred under their stored offset. Unrecognised tags are skipped.
- **Deferred pass** (`Deferred`). Visits the deferred offsets in ascending order. At each one it reads `count` units and decodes them.
- **Value decoding** (`Endian`, `Values`). `_motorola_val` and `_intel_val` turn a byte string into an unsigned integer. `_rational_val` reads a numerator and a denominator. `_get_value` shapes the result: text without its terminator, a single value, or a list.

`GpsReader.ReadGps` composes the phases. Failures are values of `Results.Error`, one constructor per way the reader stops:

- the three `ExifFormatException`s;
- the KeyError for a datatype code outside the table;
- the IndexError for too few raw values;
- running out of input.

Offsets are kept relative to the TIFF header origin once it is known. The stream position `exif_start + p` is byte `p` of `t = s[origin..]`. Each stored offset is therefore a position in `t` as it stands.

Some behaviours of the code that are easy to miss:

- A datatype code outside {0, 1, 2, 5} on a recognised tag raises KeyError at the `DATATYPE_LENGTHS` lookup (ExifGPSReader.py:151). The entry is not skipped; the model returns `UnknownDatatype`. Code 0 (length 0) is accepted.
- No check is made that a deferred offset lies ahead of the cursor: the deferred pass seeks to each stored offset as it stands (ExifGPSReader.py:196).
- Deferred values are read in units of the `datatype_length` left over from the last recognised entry of the walk, not each entry's own length (ExifGPSReader.py:207; see Findings).
- A repeated stored offset replaces the earlier entry in `ifd_offsets` (ExifGPSReader.py:166).

## Model

| member | source | states |
|---|---|---|
| Endian.MotorolaVal | ExifGPSReader.py:256-263 | The shift-and-or loop computes the big-endian value of the string: the first byte is the most significant, and the result is below 256^n. |
| Endian.IntelVal | ExifGPSReader.py:265-274 | The loop that ors each byte in at a shift growing by 8 computes the little-endian value: the first byte is the least significant, and the result is below 256^n. |
| Endian.IntelIsReversedMotorola | ExifGPSReader.py:256-274 | For every byte string, the Intel reading equals the Motorola reading of the reversed string. |
| Endian.BigEndianRoundTrip | ExifGPSReader.py:256-263 | Every number below 256^w, written as w big-endian bytes, decodes back to itself. |
| Endian.BigEndianBytesRoundTrip | ExifGPSReader.py:256-263 | Every byte string is the big-endian encoding, at its own width, of its decoded value, so decoding loses nothing. |
| Endian.LittleEndianRoundTrip | ExifGPSReader.py:265-274 | Every number below 256^w, written as w little-endian bytes, decodes back to itself. |
| Endian.LittleEndianBytesRoundTrip | ExifGPSReader.py:265-274 | Every byte string is the little-endian encoding of its decoded value. |
| Endian.DecodeExample | ExifGPSReader.py:256-274 | The bytes 01 02 03 04 read as 0x01020304 in Motorola order and 0x04030201 in Intel order. |
| Stream.Take | ExifGPSReader.py:136-140 | A read whose bytes are used succeeds exactly when that many bytes remain (or none are asked for), and returns those bytes in order; otherwise the input is truncated. |
| Stream.Peek | ExifGPSReader.py:80 | A read compared with a marker returns at most n bytes, each the input byte at its position, and exactly n exactly when that many remain. |
| Stream.Slice | ExifGPSReader.py:180 | A Python slice with non-negative bounds returns the input's bytes from the lower bound on, in order. Its length is the upper bound, clamped to the string's length, minus the lower bound, and it is empty when the bounds cross. |
| Stream.ReadUnits | ExifGPSReader.py:207-208 | `count` consecutive reads of `unit` bytes succeed exactly when the whole span is present; they return `count` chunks of `unit` bytes whose concatenation is that span of the input. |
| Stream.ReadUnitsChunk | ExifGPSReader.py:207-208 | Read `i` of `count` consecutive reads returns the `unit` bytes that start `i` units after the offset (up to the end of the input). |
| Stream.SpanIsProduct | ExifGPSReader.py:153 | The bytes consumed by `count` reads of `unit` bytes are `unit * count`, the value length. |
| Values.RationalVal | ExifGPSReader.py:248-254 | A rational's numerator comes from bytes 0-3 and its denominator from bytes 4-7, each a 32-bit unsigned value in the active byte order. |
| Values.Convert | ExifGPSReader.py:231-239 | RATIONAL values decode as fractions; every other datatype decodes as an integer below 256 to the string's length. |
| Values.DropLast | ExifGPSReader.py:228 | `[0:-1]` removes exactly the final byte, and leaves an empty string empty. |
| Values.GetValue | ExifGPSReader.py:215-246 | ASCII keeps the first raw string minus its final byte. Any other datatype converts the first `count` raw strings: one value when `count` is 1, otherwise the list with unconverted strings after position `count`. It fails with IndexError exactly when there are fewer raw strings than `count`. |
| Values.InlineShape | ExifGPSReader.py:171-182 | An inline field decodes to its first count-1 bytes as text for ASCII, and to the field's byte for a count-1 BYTE. Count 0 of a non-ASCII type gives a one-element list of the empty string (ASCII count 0 gives empty text); count 2 or more of a non-ASCII type is an IndexError. |
| Values.RationalRoundTrip | ExifGPSReader.py:248-254 | Any 32-bit numerator and denominator written in either byte order decode back to themselves. |
| Values.RationalExample | ExifGPSReader.py:287 | The altitude 00 00 28 E1 00 00 03 E8 decodes as 10465/1000, the 10.465 the reader's test expects. |
| Segments.App1Field | ExifGPSReader.py:94-96 | The segment marker is accepted exactly when it is FF E1, and reading continues after it; otherwise APP1 is missing. |
| Segments.FindApp1 | ExifGPSReader.py:79-96 | Fails with the start-of-image error exactly when the first two bytes are not FF D8. Skips an APP0 segment to its length field's position plus its big-endian length. Otherwise expects APP1 directly after SOI, and fails only with the SOI, APP1 or truncation error. |
| Segments.ByteOrderOf | ExifGPSReader.py:112-122 | The header selects Intel exactly when it is "II*\0" and Motorola exactly when it is "MM\0*"; anything else is the endianness error. |
| Segments.ReadFrame | ExifGPSReader.py:79-122 | A frame's origin is 8 bytes after the APP1 length field and its end is that field's position plus the big-endian length. The order is the one the 4 header bytes name. The start-of-image error occurs exactly when the input does not open with FF D8, and the APP1 error exactly when the marker after SOI (and any APP0) is not FF E1. The endianness error occurs exactly when the input reaches the frame origin and the header there, possibly cut short by the end of the input, names neither order. An input that ends before the origin is truncation. |
| Segments.FrameAt | ExifGPSReader.py:98-122 | From the APP1 length field on: end = field position + length, origin = field position + 8, and the order is the header's; truncated when the input ends before the header. |
| Segments.FrameAtSuffix | ExifGPSReader.py:98-122 | The frame depends only on the input from the APP1 length field on; its positions move with that field. |
| Directory.PointerTagBytes | ExifGPSReader.py:34 | The two bytes a file stores the pointer tag 0x8825 as decode to 0x8825 in that file's order, and they are the scanned bytes 88 25 exactly in Motorola order. |
| Directory.PointerWindow | ExifGPSReader.py:34 | A 2-byte window holds tag 0x8825 in a byte order exactly when it is that order's encoding of the tag. |
| Directory.FindGpsPointer | ExifGPSReader.py:124-129 | A found pointer lies just after a window at an even distance from the start that equals the tag bytes, below the end of APP1, with every earlier window present and different. The scan fails only when the input ends before the end of APP1, and then every visited window that lies wholly in the input differs from the tag. |
| Directory.ScanNoneMeansNoTag | ExifGPSReader.py:124-132 | When the scan finds no pointer, no window it reads below the end of APP1 holds the tag bytes. |
| Directory.ScanWithoutTag | ExifGPSReader.py:124-132 | When no window below the end of APP1 holds the tag, the scan reports no GPS data, without error, exactly when the input reaches the end of APP1 (or the scan starts at or past it). Otherwise the input is truncated. |
| Directory.Apply | ExifGPSReader.py:146-182 | An unrecognised tag changes nothing. A recognised tag with an unknown datatype is a KeyError. Otherwise: a value length over 4 bytes defers the entry under its stored offset, replacing any entry already there; a shorter one stores the decoded first value-length bytes under the field name. The unit length left behind is the entry's own. Well-formedness is kept. |
| Directory.ReadEntry | ExifGPSReader.py:143-185 | Reading an entry read by read, as the reader does, consumes exactly 12 bytes and has the effect of the entry as TIFF lays it out; it fails only with a directory error. |
| Directory.ApplyAll | ExifGPSReader.py:143-185 | Applying entries in turn keeps record keys among the nine GPS field names and defers only entries too long for their field. |
| Directory.WalkEntries | ExifGPSReader.py:143-185 | The walk over n entries ends 12n bytes after it began, within the input, so a directory that runs past the input fails; it fails only with a directory error. |
| Directory.WalkIsApplyAll | ExifGPSReader.py:143-185 | The read-by-read walk equals the directory's entries, as TIFF lays them out, applied in directory order. |
| Directory.WalkKeepsWellFormed | ExifGPSReader.py:143-185 | A successful walk keeps record keys among the GPS field names and defers only recognised entries longer than 4 bytes. |
| Directory.ReadDirectory | ExifGPSReader.py:124-185 | No directory is read exactly when the scan finds no pointer. A walked directory is well-formed, and every failure is a directory error. |
| Directory.ReadDirectoryFound | ExifGPSReader.py:132-143 | Once the pointer is found, the directory is the walk of the entry count and entries stored at the pointer offset. |
| Deferred.SortedKeys | ExifGPSReader.py:193 | The sorted offsets are exactly the deferred offsets, in strictly ascending order, so each is visited once. |
| Deferred.ReadPending | ExifGPSReader.py:195-209 | A deferred value is read in units of the leftover unit length. It is truncated when those units run past the input. For every leftover unit length, 0 included, text is the first unit minus its last byte and a count-1 value is the first unit converted; with a unit of 0 that unit is empty; any other count gives a list of `count` values whose item `i` is the `i`-th unit read from the offset, converted by the entry's datatype. |
| Deferred.Resolve | ExifGPSReader.py:187-209 | The deferred pass stores a value under the name of every visited offset and adds no other key. Keys stay GPS field names, and failures are directory errors. |
| Deferred.LastOffsetWins | ExifGPSReader.py:195-209 | The value stored under a name is the one read at the last visited offset with that name. A name no deferred value carries keeps the walk's value. |
| Deferred.ReadPendingIntended | ExifGPSReader.py:199-209 | Corrected read: units of the entry's own datatype length, succeeding exactly when the whole value is present. ASCII is the full text minus its terminator; a single rational is read from its 8 bytes; any other count gives a list whose item `i` is the `i`-th unit of the entry's own length, converted. |
| Deferred.ResolveIntended | ExifGPSReader.py:187-209 | The corrected pass stores a value under the name of every visited offset and adds no other key. |
| Deferred.ResolveAgreesWhenUnitsMatch | ExifGPSReader.py:199-209 | When every deferred value is non-ASCII and its own unit length equals the leftover one, the reader's pass and the corrected pass give the same result. |
| GpsReader.GpsFromTiff | ExifGPSReader.py:124-213 | After the byte-order check, the result has only GPS field names as keys, is empty when the scan finds no pointer, and fails only with directory errors. |
| GpsReader.ReadGps | ExifGPSReader.py:53-213 | The start-of-image, APP1 and endianness errors happen exactly in their conditions. A successful result has only the nine GPS field names as keys. No pointer before the end of APP1 gives an empty record, not an error. |
| GpsReader.ReadGpsFromLengthField | ExifGPSReader.py:98-213 | Once APP1 is found, the result depends only on the input from its length field on. |
| GpsReader.App1DirectlyAfterSoi | ExifGPSReader.py:83-96 | Without APP0, the APP1 marker must directly follow SOI; its length field is then at position 4. |
| GpsReader.App1AfterApp0 | ExifGPSReader.py:85-96 | An APP0 segment whose length counts its own bytes is skipped exactly up to the marker that follows it. |
| GpsReader.App0DoesNotChangeResult | ExifGPSReader.py:85-92 | Putting an APP0 segment in front of the same APP1 segment does not change the result. |
| GpsReader.GpsFromTiffIntended | ExifGPSReader.py:124-209 | The corrected reading after the byte-order check has only GPS field names as keys and is empty when no pointer is found. |
| GpsReader.ReadGpsIntended | ExifGPSReader.py:53-213 | The corrected reader has the reader's segment errors in exactly the same cases, and only GPS field names as keys. |
| GpsReader.TiffAgreesWhenUnitsMatch | ExifGPSReader.py:124-209 | In a Motorola file whose deferred values are non-ASCII and share the leftover unit length, the reader and the corrected reader store the same record. |
| GpsReader.IntendedAgreesWhenUnitsMatch | ExifGPSReader.py:53-213 | The same holds on a whole JPEG. |
| GpsReader.SamplePointer | ExifGPSReader.py:127-129 | In a sample Motorola body, the scan stops right after the pointer entry's tag at offset 10. |
| GpsReader.SampleLatitudeRefEntry | ExifGPSReader.py:144-152 | The sample's `latitude_ref` entry reads as tag 1, ASCII, count 2, "N\0". |
| GpsReader.SampleAltitudeEntry | ExifGPSReader.py:144-152 | The sample's `altitude` entry reads as tag 6, RATIONAL, count 1, offset 56. |
| GpsReader.SampleEntryWalk | ExifGPSReader.py:143-185 | The sample's walk decodes "N" inline, defers the altitude under offset 56, and leaves unit length 8. |
| GpsReader.SampleWalk | ExifGPSReader.py:132-185 | The sample's GPS directory is found and walked to that state. |
| GpsReader.SampleApp1 | ExifGPSReader.py:79-96 | In the sample JPEG, APP1 directly follows SOI. |
| GpsReader.SampleFrame | ExifGPSReader.py:79-122 | The sample's frame is Motorola order, origin 12, end 76. |
| GpsReader.SampleAltitudeRead | ExifGPSReader.py:195-209 | The sample's deferred altitude reads 10465/1000. |
| GpsReader.SampleRecord | ExifGPSReader.py:124-209 | The sample's GPS data is `latitude_ref` "N" and `altitude` 10465/1000. |
| GpsReader.ReadsSampleJpeg | ExifGPSReader.py:284-294 | The whole sample JPEG reads as `latitude_ref` "N" and `altitude` 10465/1000, the values the reader's test expects for those two fields. |
| Findings.ShortUnitRationalHasZeroDenominator | ExifGPSReader.py:206-209 | A deferred single rational read under a leftover unit length of at most 4 always has a zero denominator. |
| Findings.UnitOneAsciiIsEmpty | ExifGPSReader.py:225-228 | A deferred ASCII value read under a leftover unit length of 1 is always empty text. |
| Findings.AsciiEntryLeavesUnitOne | ExifGPSReader.py:150-153 | An inline ASCII entry after a deferred altitude leaves unit length 1 for the deferred pass. |
| Findings.AltitudeAsWritten | ExifGPSReader.py:206-209 | A deferred altitude read in 1-byte units is 0/0. |
| Findings.AltitudeIntended | ExifGPSReader.py:206-209 | The same bytes read in their own 8-byte unit are 10465/1000. |
| Findings.LeftoverUnitMisreadsAltitude | ExifGPSReader.py:206-209 | With leftover unit length 1, the reader's pass stores altitude 0/0 where the corrected pass stores 10465/1000. |
| Findings.AsciiAsWritten | ExifGPSReader.py:225-228 | A deferred "ABCDE\0" read by the reader under a leftover unit length of 1 is empty text. |
| Findings.AsciiIntended | ExifGPSReader.py:225-228 | Read as one string, it is "ABCDE". |
| Findings.DeferredAsciiLosesText | ExifGPSReader.py:225-228 | The reader's pass stores empty text where the corrected pass stores "ABCDE". |
| Findings.AsWrittenScanMissesIntelPointer | ExifGPSReader.py:127-129 | Any window the reader's scan stops at reads as 0x2588 in Intel order, never the pointer tag 0x8825. |
| Findings.IntendedScanFindsPointer | ExifGPSReader.py:127-129 | The corrected scan stops at a window holding 0x8825 in the file's own order, and every earlier window it reads holds another value. |
| Findings.IntelPointerMissedAsWritten | ExifGPSReader.py:127-132 | The reader's scan over an Intel body whose only entry is the GPS pointer finds nothing. |
| Findings.IntelPointerFoundIntended | ExifGPSReader.py:127-132 | The corrected scan finds that pointer at offset 10. |
| Findings.IntelPointerMissed | ExifGPSReader.py:127-132 | Over that Intel body, the reader's scan finds nothing and the corrected scan finds the pointer. |

## Left out

- Streams: the input is a byte sequence; `read`, `seek` and `tell` are positions in it. Opening and closing the stream belong to the caller.
- Short reads: a read whose bytes are decoded or skipped fails with `Truncated` when the input runs out. The reader itself would go on with the shorter string, or raise TypeError from `ord('')`. Reads compared with a marker are short reads, as in the reader.
- The pointer scan at the end of the input: a short read leaves the position at the end of the input. If that is before the end of APP1, the reader's loop never ends; the model returns `Truncated` there.
- Floating point: a rational is kept as its numerator and denominator. The division of `_rational_val` is not modelled. Neither is the ZeroDivisionError for a zero denominator; a `Fraction` with `den == 0` stands where the reader would raise it.
- The forward-only claim of the docstring is not enforced. The reader never checks it: the seek to the GPS directory, or to a deferred offset, may go backwards.
- `_get_value` converts its list in place; the model builds a new list.
- The text of `ExifFormatException` messages: each exception is one `Results.Error` constructor.
- Python's `<<` and `|` in `_motorola_val` and `_intel_val` are written as multiplication and addition. The shifted-in byte never overlaps the bits already set. Python integers are unbounded, so there is no wrap-around to model.
- The unit test, its `test.jpg` fixture and `unittest.main` are not part of this model. A hand-built 76-byte JPEG stands in for the fixture in `GpsReader.ReadsSampleJpeg`.
- The unused imports `code` and `collections`, and dictionary iteration order: the record is a map.
- GpsReader.ReadGps: its contract characterises the segment errors exactly. Of the directory phase it states only the key set, the empty record without a pointer, and that failures are directory errors. The exact results follow from `Directory.WalkIsApplyAll`, `Deferred.LastOffsetWins` and the lemmas about the scan.

## Findings

| source | as written | input that shows it | evidently intended | confidence | as-written member | corrected member |
|---|---|---|---|---|---|---|
| ExifGPSReader.py:206-209 | Every deferred value is read in units of `datatype_length`, left over from the last recognised entry of the walk (line 151). | A GPS directory whose deferred RATIONAL altitude (00 00 28 E1 00 00 03 E8) is followed by an inline ASCII `direction_ref`. The altitude is then read as one byte: 0/0, a ZeroDivisionError. | Read each deferred value in units of its own datatype length: 10465/1000. | not executed | Findings.LeftoverUnitMisreadsAltitude | Deferred.ReadPendingIntended |
| ExifGPSReader.py:225-228 | Deferred ASCII is read as `count` strings of the leftover `datatype_length` (line 207); `_get_value` keeps only the first, minus its last byte. The text is the first unit-length-minus-one bytes at the offset: empty after a unit of 1, the first 7 bytes after a RATIONAL entry's 8. | A deferred `latitude_ref` "ABCDE\0" (count 6) in a directory whose last recognised entry is ASCII or BYTE, leaving a unit length of 1 (as `Findings.AsciiEntryLeavesUnitOne` shows for an inline ASCII entry), is stored as empty text. | Read the `count` bytes as one string and drop the terminator: "ABCDE". | not executed | Findings.DeferredAsciiLosesText | Deferred.ResolveIntended |
| ExifGPSReader.py:127-129 | The scan looks for the bytes 88 25 whatever the byte order. An Intel file stores tag 0x8825 as 25 88. | An Intel TIFF body whose IFD 0 holds only the GPS pointer entry (25 88 04 00 01 00 00 00 1A 00 00 00). The scan finds nothing and `read_gps` returns an empty record. | Look for the tag as the file's byte order stores it. | not executed | Findings.IntelPointerMissed | Findings.IntendedScanFindsPointer |

The corrected definitions are put together in `GpsReader.ReadGpsIntended`:

- the scan uses `Directory.PointerTagBytes`;
- the deferred pass is `Deferred.ResolveIntended`.

`GpsReader.IntendedAgreesWhenUnitsMatch` shows that the reader and the corrected reader agree whenever none of the three quirks applies.

=== FILE: deferred.dfy ===
/** The deferred pass of `read_gps`: the stored offsets of values longer
    than 4 bytes, visited in ascending order, each value read and decoded
    there. Offsets are relative to the TIFF header origin, as in the walk.
 */
module Deferred {
  import opened Endian
  import opened Results
  import opened Stream
  import opened Values
  import opened Directory

  /** Every non-empty set of offsets has a least element. */
  lemma {:induction false} LeastWitness(ks: set<nat>) returns (m: nat)
    requires ks != {}
    decreases |ks|
    ensures m in ks && forall k :: k in ks ==> m <= k
  {
    var x :| x in ks;
    var rest := ks - {x};
    if rest == {} {
      assert ks == {x};
      m := x;
    } else {
      var n := LeastWitness(rest);
      m := if x < n then x else n;
      forall k | k in ks ensures m <= k {
        if k != x {
          assert k in rest;
        }
      }
    }
  }

  /** The smallest offset of a non-empty set. */
  function Least(ks: set<nat>): (m: nat)
    requires ks != {}
    ensures m in ks && forall k :: k in ks ==> m <= k
  {
    assert exists m :: m in ks && forall k :: k in ks ==> m <= k by {
      var w := LeastWitness(ks);
    }
    var m :| m in ks && forall k :: k in ks ==> m <= k;
    m
  }

  predicate StrictlyIncreasing(xs: seq<nat>) {
    forall i, j :: 0 <= i < j < |xs| ==> xs[i] < xs[j]
  }

  /** `sorted(ifd_offsets.iterkeys())`: every offset, in strictly
      ascending order and so each once. */
  function SortedKeys(ks: set<nat>): (r: seq<nat>)
    decreases |ks|
    ensures forall x :: x in r <==> x in ks
    ensures StrictlyIncreasing(r)
  {
    if ks == {} then []
    else
      var m := Least(ks);
      var others := ks - {m};
      var rest := SortedKeys(others);
      var r := [m] + rest;
      assert forall i :: 0 < i < |r| ==> r[i] == rest[i - 1];
      assert forall x :: x in r <==> x == m || x in rest;
      assert StrictlyIncreasing(r) by {
        forall i, j | 0 <= i < j < |r| ensures r[i] < r[j] {
          assert r[j] in others;
          if i > 0 {
            assert rest[i - 1] < rest[j - 1];
          }
        }
      }
      r
  }

  /** One deferred value as `read_gps` reads it: `count` reads of
      `unitLen` bytes at the offset, `unitLen` being whatever unit length
      the last recognised directory entry had. */
  function ReadPending(t: seq<Byte>, order: Order, unitLen: nat, offset: nat, p: Pending): (r: Result<Value>)
    ensures r.Ok? ==> Span(unitLen, p.count) == 0 || offset + Span(unitLen, p.count) <= |t|
    ensures r.Err? ==> IsDirectoryError(r.error)
    ensures Span(unitLen, p.count) > 0 && offset + Span(unitLen, p.count) > |t| ==> r == Err(Truncated)
    ensures r.Ok? && p.typeCode == AsciiType && p.count > 0 ==>
              r.value == Text(DropLast(Peek(t, offset, unitLen)))
    ensures r.Ok? && p.typeCode != AsciiType && p.count == 1 ==>
              r.value == Convert(order, p.typeCode, Peek(t, offset, unitLen))
    ensures r.Ok? && p.typeCode != AsciiType && p.count != 1 ==>
              r.value.List? && |r.value.items| == p.count
    ensures r.Ok? && p.typeCode != AsciiType && p.count != 1 ==>
              ItemsRead(t, order, offset, unitLen, p.typeCode, p.count, r.value.items)
  {
    match ReadUnits(t, offset, unitLen, p.count)
    case Err(e) => Err(e)
    case Ok(data) =>
      ListItems(t, order, offset, unitLen, p.typeCode, p.count, data);
      assert p.count > 0 ==> data[0] == Peek(t, offset, unitLen) by {
        if p.count > 0 {
          ReadUnitsChunk(t, offset, unitLen, p.count, 0);
        }
      }
      GetValue(order, data, p.count, p.typeCode)
  }

  /** The first `count` items are the `count` consecutive `unit`-byte reads
      from `offset` on, each converted as `typeCode` says. */
  predicate ItemsRead(t: seq<Byte>, order: Order, offset: nat, unit: nat, typeCode: nat, count: nat, items: seq<Value>) {
    count <= |items| &&
    forall i {:trigger items[i]} :: 0 <= i < count ==>
      items[i] == Convert(order, typeCode, Peek(t, offset + Span(unit, i), unit))
  }

  /** Item `i` of a non-ASCII list value is unit `i` of the reads,
      converted. */
  lemma ListItems(t: seq<Byte>, order: Order, offset: nat, unit: nat, typeCode: nat, count: nat,
                  data: seq<seq<Byte>>)
    requires ReadUnits(t, offset, unit, count) == Ok(data)
    ensures var r := GetValue(order, data, count, typeCode);
            r.Ok? && typeCode != AsciiType && count != 1 ==> ItemsRead(t, order, offset, unit, typeCode, count, r.value.items)
  {
    var r := GetValue(order, data, count, typeCode);
    if r.Ok? && typeCode != AsciiType && count != 1 {
      forall i | 0 <= i < count
        ensures r.value.items[i] == Convert(order, typeCode, Peek(t, offset + Span(unit, i), unit))
      {
        ReadUnitsChunk(t, offset, unit, count, i);
        assert r.value.items[i] == Convert(order, typeCode, data[i]);
      }
    }
  }

  /** The first of several consecutive reads starts at the offset. */
  lemma ReadUnitsFirst(t: seq<Byte>, offset: nat, unit: nat, count: nat)
    requires count > 0 && unit > 0 && ReadUnits(t, offset, unit, count).Ok?
    ensures offset + unit <= |t|
    ensures ReadUnits(t, offset, unit, count).value[0] == t[offset..offset + unit]
  {
    assert Span(unit, count) >= unit;
    assert ReadUnits(t, offset, unit, count).value[0] == Take(t, offset, unit).value;
  }

  /** The loop over the sorted offsets: seek, read, decode and store under
      the field name, a later store overwriting an earlier one. */
  function Resolve(t: seq<Byte>, order: Order, unitLen: nat, offsets: seq<nat>,
                   pending: map<nat, Pending>, gps: map<string, Value>): (r: Result<map<string, Value>>)
    requires forall i :: 0 <= i < |offsets| ==> offsets[i] in pending
    decreases |offsets|
    ensures r.Ok? ==> r.value.Keys == gps.Keys + (set i | 0 <= i < |offsets| :: pending[offsets[i]].name)
    ensures r.Err? ==> IsDirectoryError(r.error)
    ensures r.Ok? && (forall name :: name in gps ==> IsTagName(name))
                  && (forall k :: k in pending ==> IsTagName(pending[k].name)) ==>
              forall name :: name in r.value ==> IsTagName(name)
  {
    if |offsets| == 0 then Ok(gps)
    else
      var p := pending[offsets[0]];
      match ReadPending(t, order, unitLen, offsets[0], p)
      case Err(e) => Err(e)
      case Ok(v) =>
        var r := Resolve(t, order, unitLen, offsets[1..], pending, gps[p.name := v]);
        assert (set i | 0 <= i < |offsets| :: pending[offsets[i]].name)
               == {p.name} + (set i | 0 <= i < |offsets| - 1 :: pending[offsets[1..][i]].name) by {
          forall i | 0 < i < |offsets|
            ensures pending[offsets[i]].name in (set i | 0 <= i < |offsets| - 1 :: pending[offsets[1..][i]].name)
          {
            assert offsets[i] == offsets[1..][i - 1];
          }
        }
        r
  }

  /** The value stored under a name is the one read at the greatest offset
      carrying that name; a name no deferred value carries keeps the value
      the walk stored. */
  lemma {:induction false} LastOffsetWins(t: seq<Byte>, order: Order, unitLen: nat, offsets: seq<nat>,
                                          pending: map<nat, Pending>, gps: map<string, Value>, name: string)
    requires forall i :: 0 <= i < |offsets| ==> offsets[i] in pending
    requires Resolve(t, order, unitLen, offsets, pending, gps).Ok?
    decreases |offsets|
    ensures (forall i :: 0 <= i < |offsets| ==> pending[offsets[i]].name != name) && name in gps ==>
              Resolve(t, order, unitLen, offsets, pending, gps).value[name] == gps[name]
    ensures forall j :: 0 <= j < |offsets| && pending[offsets[j]].name == name
                        && (forall i :: j < i < |offsets| ==> pending[offsets[i]].name != name) ==>
              && ReadPending(t, order, unitLen, offsets[j], pending[offsets[j]]).Ok?
              && Resolve(t, order, unitLen, offsets, pending, gps).value[name]
                 == ReadPending(t, order, unitLen, offsets[j], pending[offsets[j]]).value
  {
    if |offsets| > 0 {
      var p := pending[offsets[0]];
      var v := ReadPending(t, order, unitLen, offsets[0], p).value;
      var gps' := gps[p.name := v];
      LastOffsetWins(t, order, unitLen, offsets[1..], pending, gps', name);
      forall j | 0 <= j < |offsets| && pending[offsets[j]].name == name
                 && (forall i :: j < i < |offsets| ==> pending[offsets[i]].name != name)
        ensures ReadPending(t, order, unitLen, offsets[j], pending[offsets[j]]).Ok?
        ensures Resolve(t, order, unitLen, offsets, pending, gps).value[name]
                == ReadPending(t, order, unitLen, offsets[j], pending[offsets[j]]).value
      {
        if j == 0 {
          assert forall i :: 0 <= i < |offsets| - 1 ==> pending[offsets[1..][i]].name != name;
          assert gps'[name] == v;
        } else {
          assert offsets[1..][j - 1] == offsets[j];
          assert forall i :: j - 1 < i < |offsets| - 1 ==> pending[offsets[1..][i]].name != name;
        }
      }
    }
  }

  /** One deferred value as evidently intended: units of the entry's own
      datatype length, and ASCII text read as a single string. */
  function ReadPendingIntended(t: seq<Byte>, order: Order, offset: nat, p: Pending): (r: Result<Value>)
    requires p.typeCode in DatatypeLengths
    ensures var len := DatatypeLengths[p.typeCode] * p.count;
            len > 0 ==> (r.Ok? <==> offset + len <= |t|)
    ensures r.Err? ==> IsDirectoryError(r.error)
    ensures r.Ok? && p.typeCode == AsciiType && p.count > 0 ==>
              r.value == Text(t[offset..offset + p.count - 1])
    ensures r.Ok? && p.typeCode == RationalType && p.count == 1 ==>
              r.value == RationalVal(order, t[offset..offset + 8])
    ensures r.Ok? && p.typeCode != AsciiType && p.count != 1 ==>
              r.value.List? && |r.value.items| == p.count
    ensures r.Ok? && p.typeCode != AsciiType && p.count != 1 ==>
              ItemsRead(t, order, offset, DatatypeLengths[p.typeCode], p.typeCode, p.count, r.value.items)
  {
    var unit := DatatypeLengths[p.typeCode];
    if p.typeCode == AsciiType then
      match Take(t, offset, p.count)
      case Err(e) => Err(e)
      case Ok(text) =>
        assert p.count > 0 ==> text == t[offset..offset + p.count];
        GetValue(order, [text], p.count, p.typeCode)
    else
      SpanIsProduct(unit, p.count);
      match ReadUnits(t, offset, unit, p.count)
      case Err(e) => Err(e)
      case Ok(data) =>
        ListItems(t, order, offset, unit, p.typeCode, p.count, data);
        assert p.count == 1 && unit > 0 ==> data[0] == t[offset..offset + unit] by {
          if p.count == 1 && unit > 0 {
            ReadUnitsFirst(t, offset, unit, p.count);
          }
        }
        GetValue(order, data, p.count, p.typeCode)
  }

  /** The deferred pass as evidently intended. */
  function ResolveIntended(t: seq<Byte>, order: Order, offsets: seq<nat>,
                           pending: map<nat, Pending>, gps: map<string, Value>): (r: Result<map<string, Value>>)
    requires forall i :: 0 <= i < |offsets| ==> offsets[i] in pending && pending[offsets[i]].typeCode in DatatypeLengths
    decreases |offsets|
    ensures r.Ok? ==> r.value.Keys == gps.Keys + (set i | 0 <= i < |offsets| :: pending[offsets[i]].name)
    ensures r.Err? ==> IsDirectoryError(r.error)
    ensures r.Ok? && (forall name :: name in gps ==> IsTagName(name))
                  && (forall k :: k in pending ==> IsTagName(pending[k].name)) ==>
              forall name :: name in r.value ==> IsTagName(name)
  {
    if |offsets| == 0 then Ok(gps)
    else
      var p := pending[offsets[0]];
      match ReadPendingIntended(t, order, offsets[0], p)
      case Err(e) => Err(e)
      case Ok(v) =>
        var r := ResolveIntended(t, order, offsets[1..], pending, gps[p.name := v]);
        assert (set i | 0 <= i < |offsets| :: pending[offsets[i]].name)
               == {p.name} + (set i | 0 <= i < |offsets| - 1 :: pending[offsets[1..][i]].name) by {
          forall i | 0 < i < |offsets|
            ensures pending[offsets[i]].name in (set i | 0 <= i < |offsets| - 1 :: pending[offsets[1..][i]].name)
          {
            assert offsets[i] == offsets[1..][i - 1];
          }
        }
        r
  }

  /** A pass over a single offset stores the value read there. */
  lemma ResolveOne(t: seq<Byte>, order: Order, unitLen: nat, offset: nat,
                   pending: map<nat, Pending>, gps: map<string, Value>)
    requires offset in pending && ReadPending(t, order, unitLen, offset, pending[offset]).Ok?
    ensures Resolve(t, order, unitLen, [offset], pending, gps)
            == Ok(gps[pending[offset].name := ReadPending(t, order, unitLen, offset, pending[offset]).value])
  {
    assert [offset][1..] == [];
  }

  /** The same for the intended pass. */
  lemma ResolveIntendedOne(t: seq<Byte>, order: Order, offset: nat,
                           pending: map<nat, Pending>, gps: map<string, Value>)
    requires offset in pending && pending[offset].typeCode in DatatypeLengths
    requires ReadPendingIntended(t, order, offset, pending[offset]).Ok?
    ensures ResolveIntended(t, order, [offset], pending, gps)
            == Ok(gps[pending[offset].name := ReadPendingIntended(t, order, offset, pending[offset]).value])
  {
    assert [offset][1..] == [];
  }

  /** Where the quirks do not bite, the reader's pass and the intended one
      agree: every deferred value is non-ASCII and has the leftover unit
      length as its own. */
  lemma {:induction false} ResolveAgreesWhenUnitsMatch(t: seq<Byte>, order: Order, unitLen: nat, offsets: seq<nat>,
                                                       pending: map<nat, Pending>, gps: map<string, Value>)
    requires forall i :: 0 <= i < |offsets| ==> offsets[i] in pending && pending[offsets[i]].typeCode in DatatypeLengths
    requires forall i :: 0 <= i < |offsets| ==>
               && pending[offsets[i]].typeCode != AsciiType
               && DatatypeLengths[pending[offsets[i]].typeCode] == unitLen
    decreases |offsets|
    ensures Resolve(t, order, unitLen, offsets, pending, gps) == ResolveIntended(t, order, offsets, pending, gps)
  {
    if |offsets| > 0 {
      var p := pending[offsets[0]];
      assert ReadPending(t, order, unitLen, offsets[0], p) == ReadPendingIntended(t, order, offsets[0], p);
      match ReadPending(t, order, unitLen, offsets[0], p)
      case Err(e) =>
      case Ok(v) =>
        ResolveAgreesWhenUnitsMatch(t, order, unitLen, offsets[1..], pending, gps[p.name := v]);
    }
  }
}

=== FILE: directory.dfy ===
/** The GPS pointer scan and the GPS directory walk of `read_gps`.

    Positions here are relative to the TIFF header origin: `t` is the input
    from `exif_start` on, so the stream position `exif_start + p` is `t[p]`
    and every stored offset is a position in `t` as it stands.
 */
module Directory {
  import opened Endian
  import opened Results
  import opened Stream
  import opened Values

  /** The tag number of the GPS IFD pointer entry (TIFF/EXIF tag 34853). */
  const GpsPointer: nat := 0x8825

  /** The two bytes `read_gps` scans for, whatever the byte order: the
      pointer tag as a Motorola file stores it. */
  const GpsPointerTag: seq<Byte> := [0x88, 0x25]

  /** The two bytes a file in the given order stores the pointer tag as. */
  function PointerTagBytes(order: Order): (r: seq<Byte>)
    ensures |r| == 2 && Val(order, r) == GpsPointer
    ensures order == Motorola <==> r == GpsPointerTag
  {
    var bs: seq<Byte> := match order case Intel => [0x25, 0x88] case Motorola => [0x88, 0x25];
    assert bs[..1] == [bs[0]] && bs[1..] == [bs[1]];
    bs
  }

  /** A 2-byte window holds the pointer tag in the given order exactly when
      it is that order's encoding of it. */
  lemma PointerWindow(order: Order, w: seq<Byte>)
    requires |w| == 2
    ensures Val(order, w) == GpsPointer <==> w == PointerTagBytes(order)
  {
    assert w[..1] == [w[0]] && w[1..] == [w[1]];
    assert w == [w[0], w[1]];
    assert BigEndian(w) == (w[0] as int) * 256 + w[1] by { assert w[..1][..0] == []; }
    assert LittleEndian(w) == (w[0] as int) + 256 * (w[1] as int) by { assert w[1..][1..] == []; }
  }

  /** Bytes per directory entry (TIFF 6.0, section 2). */
  const EntrySize: nat := 12

  /** A scanned 2-byte window that is present and is not `tag`. */
  predicate PlainWindow(t: seq<Byte>, tag: seq<Byte>, q: nat) {
    q + 2 <= |t| && t[q..q + 2] != tag
  }

  /** What a 2-byte read at `q` returns, short at the end of the input,
      is not `tag`. */
  predicate NotTag(t: seq<Byte>, tag: seq<Byte>, q: nat) {
    Peek(t, q, 2) != tag
  }

  /** `q` is one of the window positions a scan from `pos` visits. */
  predicate Visited(pos: nat, q: int) {
    pos <= q && (q - pos) % 2 == 0
  }

  /** The window loop: reads 2-byte windows from `pos` on while the
      position is below `end`, stopping at the first window equal to the
      `tag` (`read_gps` passes `GpsPointerTag`), and returns the position
      just after it. A read that
      comes up short at the end of the input leaves the position at the
      end of the input: the loop stops there with `None` when that is at
      or past `end`, and otherwise would read nothing for ever, which is
      `Truncated` here. */
  function FindGpsPointer(t: seq<Byte>, tag: seq<Byte>, pos: nat, end: int): (r: Result<Option<nat>>)
    requires |tag| == 2
    decreases end - pos
    ensures r.Err? ==> r.error == Truncated && |t| < end
    ensures r.Err? ==> forall q: nat :: Visited(pos, q) && q + 2 <= |t| ==> PlainWindow(t, tag, q)
    ensures r.Ok? && r.value.Some? ==>
              && pos + 2 <= r.value.value <= |t|
              && r.value.value - 2 < end
              && Visited(pos, r.value.value - 2)
              && HoldsAt(t, r.value.value - 2, tag)
              && forall q: nat :: Visited(pos, q) && q < r.value.value - 2 ==> PlainWindow(t, tag, q)
  {
    if pos >= end then Ok(None)
    else
      assert Visited(pos, pos);
      if Peek(t, pos, 2) == tag then
        Ok(Some(pos + 2))
      else if pos + 2 <= |t| then
        assert PlainWindow(t, tag, pos);
        VisitedStep(pos);
        FindGpsPointer(t, tag, pos + 2, end)
      else if end <= |t| then
        // the short read left the position at the end of the input, at or past `end_of_app1`
        VisitedStep(pos);
        Ok(None)
      else
        Err(Truncated)
  }

  /** No pointer found means that no window the scan read below `end`
      held the tag. */
  lemma {:induction false} ScanNoneMeansNoTag(t: seq<Byte>, tag: seq<Byte>, pos: nat, end: int)
    requires |tag| == 2 && FindGpsPointer(t, tag, pos, end) == Ok(None)
    decreases end - pos
    ensures forall q: nat :: Visited(pos, q) && q < end ==> NotTag(t, tag, q)
  {
    VisitedStep(pos);
    if pos < end && pos + 2 <= |t| {
      ScanNoneMeansNoTag(t, tag, pos + 2, end);
    }
  }

  /** When no window below `end` holds the tag, the scan finds nothing:
      it ends with `None` when the input reaches `end` (or the scan starts
      at or past it) and otherwise reaches the end of the input first. */
  lemma {:induction false} ScanWithoutTag(t: seq<Byte>, tag: seq<Byte>, pos: nat, end: int)
    requires |tag| == 2
    requires forall q: nat :: Visited(pos, q) && q < end ==> NotTag(t, tag, q)
    decreases end - pos
    ensures FindGpsPointer(t, tag, pos, end) == Ok(None) <==> end <= |t| || end <= pos
    ensures FindGpsPointer(t, tag, pos, end) == Err(Truncated) <==> pos < end && |t| < end
  {
    VisitedStep(pos);
    if pos < end {
      assert NotTag(t, tag, pos);
      if pos + 2 <= |t| {
        ScanWithoutTag(t, tag, pos + 2, end);
      }
    }
  }

  /** The positions a scan from `pos` visits are `pos` and those a scan
      from `pos + 2` visits. */
  lemma VisitedStep(pos: nat)
    ensures forall q: nat :: Visited(pos, q) && q != pos ==> Visited(pos + 2, q)
    ensures forall q: nat :: Visited(pos + 2, q) ==> Visited(pos, q)
    ensures forall q: nat :: Visited(pos, q) && q < pos + 2 ==> q == pos
  {
  }

  /** One 12-byte directory entry as TIFF 6.0 lays it out. */
  datatype Entry = Entry(tag: nat, typeCode: nat, count: nat, field: seq<Byte>)

  /** The entry stored at `pos`: tag (2 bytes), datatype (2), count (4),
      then the value itself or its offset (4). */
  function EntryAt(t: seq<Byte>, order: Order, pos: nat): (e: Entry)
    requires pos + EntrySize <= |t|
    ensures |e.field| == 4
  {
    Entry(Val(order, t[pos..pos + 2]), Val(order, t[pos + 2..pos + 4]),
          Val(order, t[pos + 4..pos + 8]), t[pos + 8..pos + 12])
  }

  /** A deferred value: what `ifd_offsets` keeps for a stored offset. */
  datatype Pending = Pending(name: string, count: nat, typeCode: nat)

  /** The walk's state: the record so far (`gps`), the deferred values by
      stored offset (`ifd_offsets`) and the unit length of the last
      recognised entry (`datatype_length`). */
  datatype Walk = Walk(gps: map<string, Value>, pending: map<nat, Pending>, unitLen: nat)

  const EmptyWalk := Walk(map[], map[], 0)

  /** Keys are GPS field names, and every deferred value belongs to a
      recognised tag whose own value length exceeds the 4-byte field. */
  predicate WellFormed(w: Walk) {
    && (forall name :: name in w.gps ==> IsTagName(name))
    && (forall k :: k in w.pending ==>
          && IsTagName(w.pending[k].name)
          && w.pending[k].typeCode in DatatypeLengths
          && DatatypeLengths[w.pending[k].typeCode] * w.pending[k].count > 4)
    && w.unitLen in DatatypeLengths.Values
  }

  /** What one entry does to the walk: an unrecognised tag changes nothing;
      a recognised one is deferred under its stored offset when its value
      length (unit length times count) exceeds 4 bytes and is decoded from
      the first value-length bytes of its field otherwise. */
  function Apply(order: Order, w: Walk, e: Entry): (r: Result<Walk>)
    requires |e.field| == 4
    ensures e.tag !in GpsTags ==> r == Ok(w)
    ensures e.tag in GpsTags && e.typeCode !in DatatypeLengths ==> r == Err(UnknownDatatype(e.typeCode))
    ensures e.tag in GpsTags && e.typeCode in DatatypeLengths ==>
              var len := DatatypeLengths[e.typeCode];
              var name := GpsTags[e.tag];
              && (r.Ok? ==> r.value.unitLen == len)
              && (len * e.count > 4 ==>
                    r == Ok(Walk(w.gps, w.pending[Val(order, e.field) := Pending(name, e.count, e.typeCode)], len)))
              && (len * e.count <= 4 ==>
                    var v := GetValue(order, [e.field[..len * e.count]], e.count, e.typeCode);
                    && (r.Ok? <==> v.Ok?)
                    && (r.Ok? ==> r.value.gps == w.gps[name := v.value] && r.value.pending == w.pending))
    ensures r.Ok? && WellFormed(w) ==> WellFormed(r.value)
  {
    if e.tag !in GpsTags then Ok(w)
    else if e.typeCode !in DatatypeLengths then Err(UnknownDatatype(e.typeCode))
    else
      var name := GpsTags[e.tag];
      var len := DatatypeLengths[e.typeCode];
      var valueLength := len * e.count;
      if valueLength > 4 then
        Ok(Walk(w.gps, w.pending[Val(order, e.field) := Pending(name, e.count, e.typeCode)], len))
      else
        match GetValue(order, [e.field[..valueLength]], e.count, e.typeCode)
        case Err(err) => Err(err)
        case Ok(v) => Ok(Walk(w.gps[name := v], w.pending, len))
  }

  /** One pass of the `for i in range(num_fields)` body, read by read as
      `read_gps` does: the tag; for a recognised tag the datatype, the
      count and the 4-byte field; for any other tag 10 skipped bytes. */
  function ReadEntry(t: seq<Byte>, order: Order, pos: nat, w: Walk): (r: Result<(Walk, nat)>)
    ensures r.Ok? ==> r.value.1 == pos + EntrySize <= |t|
    ensures r.Err? ==> IsDirectoryError(r.error)
    ensures pos + EntrySize <= |t| ==>
              match Apply(order, w, EntryAt(t, order, pos))
              case Ok(w') => r == Ok((w', pos + EntrySize))
              case Err(e) => r == Err(e)
  {
    match Take(t, pos, 2)
    case Err(e) => Err(e)
    case Ok(tagBytes) =>
      var tag := Val(order, tagBytes);
      if tag !in GpsTags then
        match Take(t, pos + 2, 10)
        case Err(e) => Err(e)
        case Ok(_) => Ok((w, pos + 12))
      else
        var name := GpsTags[tag];
        match Take(t, pos + 2, 2)
        case Err(e) => Err(e)
        case Ok(typeBytes) =>
          var typeCode := Val(order, typeBytes);
          if typeCode !in DatatypeLengths then Err(UnknownDatatype(typeCode))
          else
            var len := DatatypeLengths[typeCode];
            match Take(t, pos + 4, 4)
            case Err(e) => Err(e)
            case Ok(countBytes) =>
              var count := Val(order, countBytes);
              var valueLength := len * count;
              match Take(t, pos + 8, 4)
              case Err(e) => Err(e)
              case Ok(field) =>
                if valueLength > 4 then
                  Ok((Walk(w.gps, w.pending[Val(order, field) := Pending(name, count, typeCode)], len), pos + 12))
                else
                  match GetValue(order, [field[..valueLength]], count, typeCode)
                  case Err(e) => Err(e)
                  case Ok(v) => Ok((Walk(w.gps[name := v], w.pending, len), pos + 12))
  }

  /** The `n` entries of a directory whose first entry is at `pos`. */
  function EntriesFrom(t: seq<Byte>, order: Order, pos: nat, n: nat): (es: seq<Entry>)
    requires pos + EntrySize * n <= |t|
    decreases n
    ensures |es| == n
    ensures forall i :: 0 <= i < n ==> |es[i].field| == 4
  {
    if n == 0 then [] else [EntryAt(t, order, pos)] + EntriesFrom(t, order, pos + EntrySize, n - 1)
  }

  /** The entries' effects applied in directory order. */
  function ApplyAll(order: Order, w: Walk, es: seq<Entry>): (r: Result<Walk>)
    requires forall i :: 0 <= i < |es| ==> |es[i].field| == 4
    decreases |es|
    ensures r.Ok? && WellFormed(w) ==> WellFormed(r.value)
  {
    if |es| == 0 then Ok(w)
    else
      match Apply(order, w, es[0])
      case Err(e) => Err(e)
      case Ok(w') => ApplyAll(order, w', es[1..])
  }

  /** The `for i in range(num_fields)` loop: every entry consumes exactly
      12 bytes, so the walk ends 12 * n bytes after it began. */
  function WalkEntries(t: seq<Byte>, order: Order, pos: nat, n: nat, w: Walk): (r: Result<(Walk, nat)>)
    decreases n
    ensures r.Ok? ==> r.value.1 == pos + EntrySize * n
    ensures r.Ok? && n > 0 ==> pos + EntrySize * n <= |t|
    ensures r.Err? ==> IsDirectoryError(r.error)
  {
    if n == 0 then Ok((w, pos))
    else
      match ReadEntry(t, order, pos, w)
      case Err(e) => Err(e)
      case Ok(step) => WalkEntries(t, order, step.1, n - 1, step.0)
  }

  /** A walk result paired with the cursor it leaves behind. */
  function WithCursor(r: Result<Walk>, cursor: nat): Result<(Walk, nat)> {
    match r
    case Ok(w) => Ok((w, cursor))
    case Err(e) => Err(e)
  }

  /** One step of the walk over an entry that lies inside the input. */
  lemma WalkStep(t: seq<Byte>, order: Order, pos: nat, n: nat, w: Walk)
    requires n > 0 && pos + EntrySize <= |t|
    ensures match Apply(order, w, EntryAt(t, order, pos))
            case Ok(w') => WalkEntries(t, order, pos, n, w) == WalkEntries(t, order, pos + EntrySize, n - 1, w')
            case Err(e) => WalkEntries(t, order, pos, n, w) == Err(e)
  {
  }

  /** The walk is the directory's entries, as TIFF lays them out, applied
      in order. */
  lemma {:induction false} WalkIsApplyAll(t: seq<Byte>, order: Order, pos: nat, n: nat, w: Walk)
    requires pos + EntrySize * n <= |t|
    decreases n
    ensures WalkEntries(t, order, pos, n, w)
            == WithCursor(ApplyAll(order, w, EntriesFrom(t, order, pos, n)), pos + EntrySize * n)
  {
    if n > 0 {
      var next := pos + EntrySize;
      assert EntrySize * n == EntrySize + EntrySize * (n - 1);
      var e := EntryAt(t, order, pos);
      var es := EntriesFrom(t, order, pos, n);
      var rest := EntriesFrom(t, order, next, n - 1);
      assert es == [e] + rest;
      assert es[0] == e && es[1..] == rest;
      WalkStep(t, order, pos, n, w);
      match Apply(order, w, e)
      case Err(err) =>
        assert ApplyAll(order, w, es) == Err(err);
      case Ok(w') =>
        assert ApplyAll(order, w, es) == ApplyAll(order, w', rest);
        WalkIsApplyAll(t, order, next, n - 1, w');
    }
  }


  /** A successful walk keeps record keys among the GPS field names and
      defers only entries too long for their field. */
  lemma {:induction false} WalkKeepsWellFormed(t: seq<Byte>, order: Order, pos: nat, n: nat, w: Walk)
    requires WellFormed(w)
    decreases n
    ensures WalkEntries(t, order, pos, n, w).Ok? ==> WellFormed(WalkEntries(t, order, pos, n, w).value.0)
  {
    if n > 0 && pos + EntrySize <= |t| {
      match Apply(order, w, EntryAt(t, order, pos))
      case Err(e) =>
      case Ok(w') =>
        WalkKeepsWellFormed(t, order, pos + EntrySize, n - 1, w');
    }
  }

  /** The GPS directory as `read_gps` finds it: the window scan from just
      after the TIFF header for `tag`, then 6 skipped bytes, the 4-byte
      pointer, the 2-byte entry count and the entries. `None` when no
      pointer tag is found before the end of APP1. */
  function ReadDirectory(t: seq<Byte>, order: Order, tag: seq<Byte>, end: int): (r: Result<Option<Walk>>)
    requires |tag| == 2
    ensures r.Ok? && r.value.Some? ==> WellFormed(r.value.value)
    ensures r.Ok? && r.value.None? <==> FindGpsPointer(t, tag, 4, end) == Ok(None)
    ensures r.Err? ==> IsDirectoryError(r.error)
  {
    match FindGpsPointer(t, tag, 4, end)
    case Err(e) => Err(e)
    case Ok(None) => Ok(None)
    case Ok(Some(p)) =>
      match Take(t, p, 6)
      case Err(e) => Err(e)
      case Ok(_) =>
        match Take(t, p + 6, 4)
        case Err(e) => Err(e)
        case Ok(pointer) =>
          var dir := Val(order, pointer);
          match Take(t, dir, 2)
          case Err(e) => Err(e)
          case Ok(countBytes) =>
            assert DatatypeLengths[0] == 0;
            WalkKeepsWellFormed(t, order, dir + 2, Val(order, countBytes), EmptyWalk);
            match WalkEntries(t, order, dir + 2, Val(order, countBytes), EmptyWalk)
            case Err(e) => Err(e)
            case Ok(walked) => Ok(Some(walked.0))
  }

  /** Once the pointer tag is found, the directory is the walk of the
      entries at the stored offset. */
  lemma ReadDirectoryFound(t: seq<Byte>, order: Order, tag: seq<Byte>, end: int, p: nat, dir: nat, n: nat)
    requires |tag| == 2 && FindGpsPointer(t, tag, 4, end) == Ok(Some(p))
    requires p + 10 <= |t| && dir == Val(order, t[p + 6..p + 10])
    requires dir + 2 <= |t| && n == Val(order, t[dir..dir + 2])
    ensures match WalkEntries(t, order, dir + 2, n, EmptyWalk)
            case Ok(walked) => ReadDirectory(t, order, tag, end) == Ok(Some(walked.0))
            case Err(e) => ReadDirectory(t, order, tag, end) == Err(e)
  {
    assert Take(t, p + 6, 4) == Ok(t[p + 6..p + 10]);
    assert Take(t, dir, 2) == Ok(t[dir..dir + 2]);
  }
}

=== FILE: endian.dfy ===
/** Byte-order decoding: `_motorola_val` and `_intel_val`.

    Both decoders turn a byte string of any length into an unsigned
    integer. Motorola order (big-endian, header "MM\0*") accumulates the
    most significant byte first; Intel order (little-endian, header
    "II*\0") the least significant byte first.
 */
module Endian {

  type Byte = b: int | 0 <= b < 256

  /** The two byte orders a TIFF header can announce. */
  datatype Order = Intel | Motorola

  function Pow256(n: nat): (r: nat)
    ensures r >= 1
  {
    if n == 0 then 1 else 256 * Pow256(n - 1)
  }

  /** Big-endian value: the last byte is the least significant. */
  function BigEndian(bs: seq<Byte>): (r: nat)
    ensures r < Pow256(|bs|)
  {
    if |bs| == 0 then 0
    else
      var high := BigEndian(bs[..|bs| - 1]);
      assert high <= Pow256(|bs| - 1) - 1;
      assert high * 256 <= Pow256(|bs| - 1) * 256 - 256;
      high * 256 + bs[|bs| - 1]
  }

  /** Little-endian value: the first byte is the least significant. */
  function LittleEndian(bs: seq<Byte>): (r: nat)
    ensures r < Pow256(|bs|)
  {
    if |bs| == 0 then 0
    else
      var high := LittleEndian(bs[1..]);
      assert high <= Pow256(|bs| - 1) - 1;
      assert 256 * high <= 256 * Pow256(|bs| - 1) - 256;
      bs[0] + 256 * high
  }

  /** `self._val` once the byte order is known. */
  function Val(order: Order, bs: seq<Byte>): (r: nat)
    ensures r < Pow256(|bs|)
    ensures order == Motorola ==> r == BigEndian(bs)
    ensures order == Intel ==> r == LittleEndian(bs)
  {
    match order
    case Intel => LittleEndian(bs)
    case Motorola => BigEndian(bs)
  }

  function Reverse(bs: seq<Byte>): (r: seq<Byte>)
    ensures |r| == |bs|
    ensures forall i :: 0 <= i < |bs| ==> r[i] == bs[|bs| - 1 - i]
  {
    if |bs| == 0 then [] else Reverse(bs[1..]) + [bs[0]]
  }

  /** The `width` big-endian bytes of `n`; the inverse of `BigEndian`. */
  function BigEndianBytes(n: nat, width: nat): (r: seq<Byte>)
    ensures |r| == width
  {
    if width == 0 then [] else BigEndianBytes(n / 256, width - 1) + [n % 256]
  }

  /** The `width` little-endian bytes of `n`; the inverse of `LittleEndian`. */
  function LittleEndianBytes(n: nat, width: nat): (r: seq<Byte>)
    ensures |r| == width
  {
    if width == 0 then [] else [n % 256] + LittleEndianBytes(n / 256, width - 1)
  }

  /** The loop of `_motorola_val`: x = (x << 8) | byte for each byte in turn. */
  method MotorolaVal(bs: seq<Byte>) returns (x: nat)
    ensures x == BigEndian(bs)
    ensures x < Pow256(|bs|)
  {
    x := 0;
    var i := 0;
    while i < |bs|
      invariant 0 <= i <= |bs|
      invariant x == BigEndian(bs[..i])
    {
      assert bs[..i + 1][..i] == bs[..i];
      // (x << 8) | c is x * 256 + c: the low byte of x << 8 is zero
      x := x * 256 + bs[i];
      i := i + 1;
    }
    assert bs[..|bs|] == bs;
  }

  /** The loop of `_intel_val`: x = x | (byte << y), y growing by 8 per byte. */
  method IntelVal(bs: seq<Byte>) returns (x: nat)
    ensures x == LittleEndian(bs)
    ensures x < Pow256(|bs|)
  {
    x := 0;
    var y := 0;
    var i := 0;
    while i < |bs|
      invariant 0 <= i <= |bs|
      invariant y == 8 * i
      invariant x == LittleEndian(bs[..i])
    {
      LittleEndianAppend(bs[..i], bs[i]);
      assert bs[..i] + [bs[i]] == bs[..i + 1];
      // x < 256^i, so the or with byte << (8 * i) is an addition
      x := x + bs[i] * Pow256(i);
      y := y + 8;
      i := i + 1;
    }
    assert bs[..|bs|] == bs;
  }

  /** Appending a byte to a little-endian string adds it at the next power. */
  lemma {:induction false} LittleEndianAppend(bs: seq<Byte>, b: Byte)
    ensures LittleEndian(bs + [b]) == LittleEndian(bs) + b * Pow256(|bs|)
  {
    if |bs| == 0 {
      assert LittleEndian([b]) == b + 256 * LittleEndian([]);
    } else {
      var longer := bs + [b];
      assert longer[0] == bs[0];
      assert longer[1..] == bs[1..] + [b];
      LittleEndianAppend(bs[1..], b);
      var p := Pow256(|bs| - 1);
      var tail := LittleEndian(bs[1..]);
      assert LittleEndian(bs + [b]) == bs[0] + 256 * (tail + b * p);
      assert LittleEndian(bs) == bs[0] + 256 * tail;
      ScaleProduct(b, p);
    }
  }

  /** 256 * (b * p) == b * (256 * p), kept apart from the proofs above. */
  lemma ScaleProduct(b: nat, p: nat)
    ensures 256 * (b * p) == b * (256 * p)
  {
  }

  /** Intel order is Motorola order read backwards. */
  lemma {:induction false} IntelIsReversedMotorola(bs: seq<Byte>)
    ensures LittleEndian(bs) == BigEndian(Reverse(bs))
    ensures Val(Intel, bs) == Val(Motorola, Reverse(bs))
  {
    if |bs| > 0 {
      var rest := Reverse(bs[1..]);
      IntelIsReversedMotorola(bs[1..]);
      assert Reverse(bs) == rest + [bs[0]];
      assert (rest + [bs[0]])[..|rest|] == rest;
      assert BigEndian(Reverse(bs)) == BigEndian(rest) * 256 + bs[0];
    }
  }

  /** Decoding the big-endian bytes of a number that fits gives it back. */
  lemma {:induction false} BigEndianRoundTrip(n: nat, width: nat)
    requires n < Pow256(width)
    ensures BigEndian(BigEndianBytes(n, width)) == n
  {
    if width > 0 {
      var high := n / 256;
      var bs := BigEndianBytes(n, width);
      assert bs == BigEndianBytes(high, width - 1) + [n % 256];
      assert bs[..width - 1] == BigEndianBytes(high, width - 1);
      assert high < Pow256(width - 1);
      BigEndianRoundTrip(high, width - 1);
      assert BigEndian(bs) == high * 256 + n % 256;
    }
  }

  /** Re-encoding a decoded big-endian string gives the same bytes. */
  lemma {:induction false} BigEndianBytesRoundTrip(bs: seq<Byte>)
    ensures BigEndianBytes(BigEndian(bs), |bs|) == bs
  {
    if |bs| > 0 {
      var n := BigEndian(bs);
      var init := bs[..|bs| - 1];
      assert n / 256 == BigEndian(init);
      assert n % 256 == bs[|bs| - 1];
      BigEndianBytesRoundTrip(init);
      assert bs == init + [bs[|bs| - 1]];
    }
  }

  /** Decoding the little-endian bytes of a number that fits gives it back. */
  lemma {:induction false} LittleEndianRoundTrip(n: nat, width: nat)
    requires n < Pow256(width)
    ensures LittleEndian(LittleEndianBytes(n, width)) == n
  {
    if width > 0 {
      var bs := LittleEndianBytes(n, width);
      assert bs[1..] == LittleEndianBytes(n / 256, width - 1);
      LittleEndianRoundTrip(n / 256, width - 1);
    }
  }

  /** Re-encoding a decoded little-endian string gives the same bytes. */
  lemma {:induction false} LittleEndianBytesRoundTrip(bs: seq<Byte>)
    ensures LittleEndianBytes(LittleEndian(bs), |bs|) == bs
  {
    if |bs| > 0 {
      var n := LittleEndian(bs);
      assert n % 256 == bs[0];
      assert n / 256 == LittleEndian(bs[1..]);
      LittleEndianBytesRoundTrip(bs[1..]);
      assert bs == [bs[0]] + bs[1..];
    }
  }

  /** Zero bytes are worth zero in big-endian order. */
  lemma {:induction false} BigEndianZeros(bs: seq<Byte>)
    requires forall i :: 0 <= i < |bs| ==> bs[i] == 0
    ensures BigEndian(bs) == 0
  {
    if |bs| > 0 {
      BigEndianZeros(bs[..|bs| - 1]);
    }
  }

  /** A big-endian number whose bytes are all zero but the last is that
      last byte. */
  lemma BigEndianOfLastByte(bs: seq<Byte>)
    requires |bs| > 0 && forall i :: 0 <= i < |bs| - 1 ==> bs[i] == 0
    ensures BigEndian(bs) == bs[|bs| - 1]
  {
    BigEndianZeros(bs[..|bs| - 1]);
  }

  /** The bytes 01 02 03 04 read in both orders. */
  lemma DecodeExample()
    ensures BigEndian([0x01, 0x02, 0x03, 0x04]) == 0x01020304
    ensures LittleEndian([0x01, 0x02, 0x03, 0x04]) == 0x04030201
  {
    var bs: seq<Byte> := [0x01, 0x02, 0x03, 0x04];
    assert bs[..3] == [0x01, 0x02, 0x03];
    assert bs[..3][..2] == [0x01, 0x02];
    assert bs[..3][..2][..1] == [0x01];
    assert BigEndian([0x01]) == 0x01;
    assert BigEndian([0x01, 0x02]) == 0x0102;
    assert BigEndian([0x01, 0x02, 0x03]) == 0x010203;
    assert bs[1..] == [0x02, 0x03, 0x04];
    assert bs[1..][1..] == [0x03, 0x04];
    assert bs[1..][1..][1..] == [0x04];
  }
}

=== FILE: findings.dfy ===
/** Three places where `read_gps` reads other bytes than the file calls
    for, each shown on a concrete input and as an all-inputs statement:
    the pointer scan in Intel files (the intended scan is
    `FindGpsPointer` with `PointerTagBytes`) and two in the deferred pass
    (the intended reading is `ReadPendingIntended`).
 */
module Findings {
  import opened Endian
  import opened Results
  import opened Stream
  import opened Values
  import opened Directory
  import opened Deferred

  /** An altitude of 10465/1000 stored as a big-endian RATIONAL. */
  const AltitudeBytes: seq<Byte> := [0x00, 0x00, 0x28, 0xE1, 0x00, 0x00, 0x03, 0xE8]

  /** The six-byte ASCII value "ABCDE" with its terminating NUL. */
  const AsciiBytes: seq<Byte> := [0x41, 0x42, 0x43, 0x44, 0x45, 0x00]

  /** Under a unit length of at most 4 bytes (what an ASCII, BYTE or
      code-0 entry leaves behind) every deferred rational decodes with a
      zero denominator, which is where `_rational_val` divides by zero. */
  lemma ShortUnitRationalHasZeroDenominator(t: seq<Byte>, order: Order, unitLen: nat, offset: nat, p: Pending)
    requires p.typeCode == RationalType && p.count == 1 && unitLen <= 4
    requires ReadPending(t, order, unitLen, offset, p).Ok?
    ensures ReadPending(t, order, unitLen, offset, p).value.Fraction?
    ensures ReadPending(t, order, unitLen, offset, p).value.den == 0
  {
    var data := ReadUnits(t, offset, unitLen, p.count).value;
    assert |data[0]| == unitLen;
    assert Slice(data[0], 4, 8) == [];
  }

  /** Under a unit length of 1 (what an ASCII or BYTE entry leaves behind)
      every deferred ASCII value reads as empty text: only the first byte
      is taken as the string, and its last byte is then dropped. */
  lemma UnitOneAsciiIsEmpty(t: seq<Byte>, order: Order, offset: nat, p: Pending)
    requires p.typeCode == AsciiType && p.count > 0
    requires ReadPending(t, order, 1, offset, p).Ok?
    ensures ReadPending(t, order, 1, offset, p) == Ok(Text([]))
  {
  }

  /** The walk hands on the unit length of the last recognised entry: an
      ASCII `direction_ref` after a deferred altitude leaves 1 behind. */
  lemma AsciiEntryLeavesUnitOne()
    ensures var pending := map[0 := Pending("altitude", 1, RationalType)];
            Apply(Motorola, Walk(map[], pending, 8), Entry(16, AsciiType, 2, [0x54, 0x00, 0x00, 0x00]))
            == Ok(Walk(map["direction_ref" := Text([0x54])], pending, 1))
  {
    var field: seq<Byte> := [0x54, 0x00, 0x00, 0x00];
    assert field[..2] == [0x54, 0x00];
    assert DropLast(field[..2]) == [0x54];
  }

  /** The altitude read in 1-byte units: one zero byte, so 0/0. */
  lemma AltitudeAsWritten()
    ensures ReadPending(AltitudeBytes, Motorola, 1, 0, Pending("altitude", 1, RationalType)) == Ok(Fraction(0, 0))
  {
    ReadUnitsFirst(AltitudeBytes, 0, 1, 1);
    assert AltitudeBytes[0..1] == [0x00];
    assert Slice([0x00], 0, 4) == [0x00];
    assert Slice([0x00], 4, 8) == [];
    assert BigEndian([0x00]) == 0 by { assert [0x00][..0] == []; }
  }

  /** The altitude read in its own 8-byte unit. */
  lemma AltitudeIntended()
    ensures ReadPendingIntended(AltitudeBytes, Motorola, 0, Pending("altitude", 1, RationalType))
            == Ok(Fraction(10465, 1000))
  {
    assert AltitudeBytes[0..8] == AltitudeBytes;
    RationalExample();
  }

  /** The leftover unit length on a concrete altitude: the reader reads a
      single byte and gets 0/0; the intended pass reads 10465/1000. */
  lemma LeftoverUnitMisreadsAltitude()
    ensures var pending := map[0 := Pending("altitude", 1, RationalType)];
            && Resolve(AltitudeBytes, Motorola, 1, [0], pending, map[]) == Ok(map["altitude" := Fraction(0, 0)])
            && ResolveIntended(AltitudeBytes, Motorola, [0], pending, map[])
               == Ok(map["altitude" := Fraction(10465, 1000)])
  {
    var pending := map[0 := Pending("altitude", 1, RationalType)];
    AltitudeAsWritten();
    AltitudeIntended();
    ResolveOne(AltitudeBytes, Motorola, 1, 0, pending, map[]);
    ResolveIntendedOne(AltitudeBytes, Motorola, 0, pending, map[]);
  }

  /** "ABCDE\0" read in 1-byte units: the text is the first byte minus
      its last byte. */
  lemma AsciiAsWritten()
    ensures ReadPending(AsciiBytes, Motorola, 1, 0, Pending("latitude_ref", 6, AsciiType)) == Ok(Text([]))
  {
    assert ReadUnits(AsciiBytes, 0, 1, 6).Ok? by {
      SpanIsProduct(1, 6);
    }
    UnitOneAsciiIsEmpty(AsciiBytes, Motorola, 0, Pending("latitude_ref", 6, AsciiType));
  }

  /** "ABCDE\0" read as one string of its six bytes. */
  lemma AsciiIntended()
    ensures ReadPendingIntended(AsciiBytes, Motorola, 0, Pending("latitude_ref", 6, AsciiType))
            == Ok(Text([0x41, 0x42, 0x43, 0x44, 0x45]))
  {
    assert AsciiBytes[0..6] == AsciiBytes;
    assert AsciiBytes[0..5] == [0x41, 0x42, 0x43, 0x44, 0x45];
  }

  /** The deferred ASCII quirk on a concrete string: the reader stores
      empty text; the intended pass stores "ABCDE". */
  lemma DeferredAsciiLosesText()
    ensures var pending := map[0 := Pending("latitude_ref", 6, AsciiType)];
            && Resolve(AsciiBytes, Motorola, 1, [0], pending, map[]) == Ok(map["latitude_ref" := Text([])])
            && ResolveIntended(AsciiBytes, Motorola, [0], pending, map[])
               == Ok(map["latitude_ref" := Text([0x41, 0x42, 0x43, 0x44, 0x45])])
  {
    var pending := map[0 := Pending("latitude_ref", 6, AsciiType)];
    AsciiAsWritten();
    AsciiIntended();
    ResolveOne(AsciiBytes, Motorola, 1, 0, pending, map[]);
    ResolveIntendedOne(AsciiBytes, Motorola, 0, pending, map[]);
  }

  /** The as-written scan stops only at the bytes 88 25, which an Intel
      file reads as 0x2588: it never stops at the pointer tag of an Intel
      file. */
  lemma AsWrittenScanMissesIntelPointer(t: seq<Byte>, pos: nat, end: int)
    requires FindGpsPointer(t, GpsPointerTag, pos, end).Ok?
    requires FindGpsPointer(t, GpsPointerTag, pos, end).value.Some?
    ensures var v := FindGpsPointer(t, GpsPointerTag, pos, end).value.value;
            && Val(Intel, t[v - 2..v]) == 0x2588
            && Val(Intel, t[v - 2..v]) != GpsPointer
  {
    var v := FindGpsPointer(t, GpsPointerTag, pos, end).value.value;
    var w := t[v - 2..v];
    assert w == [0x88, 0x25];
    assert w[1..] == [0x25] && w[1..][1..] == [];
  }

  /** The corrected scan stops exactly at the first visited window that
      holds the pointer tag in the file's own byte order. */
  lemma IntendedScanFindsPointer(t: seq<Byte>, order: Order, pos: nat, end: int)
    requires FindGpsPointer(t, PointerTagBytes(order), pos, end).Ok?
    requires FindGpsPointer(t, PointerTagBytes(order), pos, end).value.Some?
    ensures var v := FindGpsPointer(t, PointerTagBytes(order), pos, end).value.value;
            && Val(order, t[v - 2..v]) == GpsPointer
            && forall q: nat :: Visited(pos, q) && q < v - 2 ==> q + 2 <= |t| && Val(order, t[q..q + 2]) != GpsPointer
  {
    var tag := PointerTagBytes(order);
    var v := FindGpsPointer(t, tag, pos, end).value.value;
    PointerWindow(order, t[v - 2..v]);
    forall q: nat | Visited(pos, q) && q < v - 2
      ensures q + 2 <= |t| && Val(order, t[q..q + 2]) != GpsPointer
    {
      assert PlainWindow(t, tag, q);
      PointerWindow(order, t[q..q + 2]);
    }
  }

  /** The start of an Intel TIFF body: "II*\0", IFD 0 at offset 8, one
      entry, which is the GPS IFD pointer (tag 0x8825 stored as 25 88,
      type 4, count 1, the GPS IFD at offset 26). */
  const IntelTiff: seq<Byte> := IntelHead + IntelPointerEntry
  const IntelHead: seq<Byte> := [0x49, 0x49, 0x2A, 0x00, 0x08, 0x00, 0x00, 0x00, 0x01, 0x00]
  const IntelPointerEntry: seq<Byte> := [0x25, 0x88, 0x04, 0x00, 0x01, 0x00, 0x00, 0x00, 0x1A, 0x00, 0x00, 0x00]

  /** The 2-byte windows of the Intel body from offset 4 on. */
  lemma IntelTiffWindows()
    ensures |IntelTiff| == 22
    ensures IntelTiff[4..6] == [0x08, 0x00] && IntelTiff[6..8] == [0x00, 0x00]
    ensures IntelTiff[8..10] == [0x01, 0x00] && IntelTiff[10..12] == [0x25, 0x88]
    ensures IntelTiff[12..14] == [0x04, 0x00] && IntelTiff[14..16] == [0x01, 0x00]
    ensures IntelTiff[16..18] == [0x00, 0x00] && IntelTiff[18..20] == [0x1A, 0x00]
    ensures IntelTiff[20..22] == [0x00, 0x00]
  {
    var t := IntelTiff;
    assert t[..10] == IntelHead && t[10..] == IntelPointerEntry;
  }

  /** The as-written scan reads every window of the Intel body and finds
      nothing. */
  lemma IntelPointerMissedAsWritten()
    ensures FindGpsPointer(IntelTiff, GpsPointerTag, 4, 22) == Ok(None)
  {
    var t := IntelTiff;
    var tag := GpsPointerTag;
    IntelTiffWindows();
    assert FindGpsPointer(t, tag, 22, 22) == Ok(None);
    assert Peek(t, 20, 2) == [0x00, 0x00];
    assert FindGpsPointer(t, tag, 20, 22) == Ok(None);
    assert Peek(t, 18, 2) == [0x1A, 0x00];
    assert FindGpsPointer(t, tag, 18, 22) == Ok(None);
    assert Peek(t, 16, 2) == [0x00, 0x00];
    assert FindGpsPointer(t, tag, 16, 22) == Ok(None);
    assert Peek(t, 14, 2) == [0x01, 0x00];
    assert FindGpsPointer(t, tag, 14, 22) == Ok(None);
    assert Peek(t, 12, 2) == [0x04, 0x00];
    assert FindGpsPointer(t, tag, 12, 22) == Ok(None);
    assert Peek(t, 10, 2) == [0x25, 0x88];
    assert FindGpsPointer(t, tag, 10, 22) == Ok(None);
    assert Peek(t, 8, 2) == [0x01, 0x00];
    assert FindGpsPointer(t, tag, 8, 22) == Ok(None);
    assert Peek(t, 6, 2) == [0x00, 0x00];
    assert FindGpsPointer(t, tag, 6, 22) == Ok(None);
    assert Peek(t, 4, 2) == [0x08, 0x00];
  }

  /** The corrected scan stops after the pointer tag at offset 10. */
  lemma IntelPointerFoundIntended()
    ensures FindGpsPointer(IntelTiff, PointerTagBytes(Intel), 4, 22) == Ok(Some(12))
  {
    var t := IntelTiff;
    var tag := PointerTagBytes(Intel);
    IntelTiffWindows();
    assert Peek(t, 10, 2) == tag;
    assert FindGpsPointer(t, tag, 10, 22) == Ok(Some(12));
    assert Peek(t, 8, 2) == [0x01, 0x00];
    assert FindGpsPointer(t, tag, 8, 22) == Ok(Some(12));
    assert Peek(t, 6, 2) == [0x00, 0x00];
    assert FindGpsPointer(t, tag, 6, 22) == Ok(Some(12));
    assert Peek(t, 4, 2) == [0x08, 0x00];
  }

  /** The Intel pointer quirk on a concrete body: the reader's scan finds
      no GPS directory; the corrected one finds it. */
  lemma IntelPointerMissed()
    ensures FindGpsPointer(IntelTiff, GpsPointerTag, 4, 22) == Ok(None)
    ensures FindGpsPointer(IntelTiff, PointerTagBytes(Intel), 4, 22) == Ok(Some(12))
  {
    IntelPointerMissedAsWritten();
    IntelPointerFoundIntended();
  }
}

=== FILE: reader.dfy ===
/** `ExifGPSReader.read_gps` as a whole: the segment walk, the GPS
    directory walk and the deferred pass, over an input given as a byte
    sequence. The result maps GPS field names to decoded values.
 */
module GpsReader {
  import opened Endian
  import opened Results
  import opened Stream
  import opened Values
  import opened Segments
  import opened Directory
  import opened Deferred

  /** Everything after the byte-order check, on the input from the TIFF
      origin on; `end` is the end of APP1 relative to that origin. */
  function GpsFromTiff(t: seq<Byte>, order: Order, end: int): (r: Result<map<string, Value>>)
    ensures r.Ok? ==> forall name :: name in r.value ==> IsTagName(name)
    ensures r.Err? ==> IsDirectoryError(r.error)
    ensures FindGpsPointer(t, GpsPointerTag, 4, end) == Ok(None) ==> r == Ok(map[])
  {
    match ReadDirectory(t, order, GpsPointerTag, end)
    case Err(e) => Err(e)
    case Ok(None) => Ok(map[])
    case Ok(Some(w)) =>
      // `if len(ifd_offsets) > 0`: with no deferred values the pass stores nothing
      var offsets := SortedKeys(w.pending.Keys);
      assert forall i :: 0 <= i < |offsets| ==> offsets[i] in w.pending;
      Resolve(t, order, w.unitLen, offsets, w.pending, w.gps)
  }

  /** `read_gps`: the GPS fields found in a JPEG's APP1 segment. */
  function ReadGps(s: seq<Byte>): (r: Result<map<string, Value>>)
    ensures r.Ok? ==> forall name :: name in r.value ==> IsTagName(name)
    ensures r == Err(MissingStartOfImage) <==> Peek(s, 0, 2) != SOI
    ensures r == Err(MissingApp1) <==> FindApp1(s) == Err(MissingApp1)
    ensures r == Err(UnknownEndianness) <==>
              && FindApp1(s).Ok?
              && FindApp1(s).value + 8 <= |s|
              && ByteOrderOf(Peek(s, FindApp1(s).value + 8, 4)).Err?
    ensures ReadFrame(s).Ok? ==>
              var f := ReadFrame(s).value;
              FindGpsPointer(s[f.origin..], GpsPointerTag, 4, f.end - f.origin) == Ok(None) ==> r == Ok(map[])
  {
    match ReadFrame(s)
    case Err(e) => Err(e)
    case Ok(f) =>
      var r := GpsFromTiff(s[f.origin..], f.order, f.end - f.origin);
      assert r.Err? ==> IsDirectoryError(r.error);
      r
  }

  /** Once the APP1 length field is found, the result depends only on
      the input from that field on. */
  function ReadFromApp1(u: seq<Byte>): Result<map<string, Value>> {
    match FrameAt(u, 0)
    case Err(e) => Err(e)
    case Ok(f) => GpsFromTiff(u[f.origin..], f.order, f.end - f.origin)
  }

  lemma ReadGpsFromLengthField(s: seq<Byte>)
    requires FindApp1(s).Ok?
    ensures ReadGps(s) == ReadFromApp1(s[FindApp1(s).value..])
  {
    var at := FindApp1(s).value;
    assert ReadFrame(s) == FrameAt(s, at);
    FrameAtSuffix(s, at);
    match FrameAt(s[at..], 0)
    case Err(e) =>
      assert ReadGps(s) == Err(e);
    case Ok(f) =>
      var g := Frame(f.order, f.origin + at, f.end + at);
      assert ReadFrame(s) == Ok(g);
      assert s[g.origin..] == s[at..][f.origin..];
      assert ReadGps(s) == GpsFromTiff(s[at..][f.origin..], f.order, f.end - f.origin);
  }

  /** With no APP0 segment, the APP1 marker must open what follows SOI. */
  lemma App1DirectlyAfterSoi(rest: seq<Byte>)
    requires Peek(rest, 0, 2) != APP0
    ensures FindApp1(SOI + rest) == if Peek(rest, 0, 2) == APP1 then Ok(4) else Err(MissingApp1)
  {
    var s := SOI + rest;
    assert s[2..] == rest;
    SuffixReads(s, 2, 0, 2);
    assert Peek(s, 0, 2) == SOI;
  }

  /** An APP0 segment whose length counts its own bytes is skipped exactly
      up to the marker that follows it. */
  lemma App1AfterApp0(rest: seq<Byte>, app0: seq<Byte>)
    requires |app0| >= 2 && BigEndian(app0[..2]) == |app0|
    ensures FindApp1(SOI + APP0 + app0 + rest)
            == if Peek(rest, 0, 2) == APP1 then Ok(4 + |app0| + 2) else Err(MissingApp1)
  {
    var s := SOI + APP0 + app0 + rest;
    assert s[4 + |app0|..] == rest;
    SuffixReads(s, 4 + |app0|, 0, 2);
    assert Peek(s, 0, 2) == SOI;
    assert Peek(s, 2, 2) == APP0;
    assert s[4..6] == app0[..2];
    assert Take(s, 4, 2) == Ok(app0[..2]);
  }

  /** A JPEG that opens directly with APP1 and the same JPEG with an APP0
      segment put in front of that APP1 read the same: the APP0 skip lands
      exactly on the APP1 marker, and every later position is taken
      relative to the TIFF origin. */
  lemma App0DoesNotChangeResult(rest: seq<Byte>, app0: seq<Byte>)
    requires |app0| >= 2 && BigEndian(app0[..2]) == |app0|
    requires Peek(rest, 0, 2) != APP0
    ensures ReadGps(SOI + APP0 + app0 + rest) == ReadGps(SOI + rest)
  {
    var s1 := SOI + rest;
    var s2 := SOI + APP0 + app0 + rest;
    App1DirectlyAfterSoi(rest);
    App1AfterApp0(rest, app0);
    if Peek(rest, 0, 2) == APP1 {
      ReadGpsFromLengthField(s1);
      ReadGpsFromLengthField(s2);
      assert s1[4..] == rest[2..];
      assert s2[4 + |app0| + 2..] == rest[2..];
    }
  }

  /** `GpsFromTiff` as evidently intended: the pointer scan looks for the
      tag as the file's byte order stores it, and the deferred pass reads
      each value in its own units. */
  function GpsFromTiffIntended(t: seq<Byte>, order: Order, end: int): (r: Result<map<string, Value>>)
    ensures r.Ok? ==> forall name :: name in r.value ==> IsTagName(name)
    ensures r.Err? ==> IsDirectoryError(r.error)
    ensures FindGpsPointer(t, PointerTagBytes(order), 4, end) == Ok(None) ==> r == Ok(map[])
  {
    match ReadDirectory(t, order, PointerTagBytes(order), end)
    case Err(e) => Err(e)
    case Ok(None) => Ok(map[])
    case Ok(Some(w)) =>
      var offsets := SortedKeys(w.pending.Keys);
      assert forall i :: 0 <= i < |offsets| ==> offsets[i] in w.pending;
      ResolveIntended(t, order, offsets, w.pending, w.gps)
  }

  /** `read_gps` as evidently intended: the pointer scan looks for the tag
      as the file's byte order stores it (`PointerTagBytes`), and the
      deferred pass reads each value in its own units (`ReadPendingIntended`);
      the segment walk and its errors are the reader's. */
  function ReadGpsIntended(s: seq<Byte>): (r: Result<map<string, Value>>)
    ensures r.Ok? ==> forall name :: name in r.value ==> IsTagName(name)
    ensures ReadFrame(s).Err? ==> r == Err(ReadFrame(s).error)
    ensures r.Err? && !IsDirectoryError(r.error) <==> ReadGps(s).Err? && !IsDirectoryError(ReadGps(s).error)
  {
    match ReadFrame(s)
    case Err(e) => Err(e)
    case Ok(f) => GpsFromTiffIntended(s[f.origin..], f.order, f.end - f.origin)
  }

  /** Every deferred value of the walk is non-ASCII and has the leftover
      unit length as its own datatype length. */
  predicate UnitsMatch(t: seq<Byte>, order: Order, end: int) {
    match ReadDirectory(t, order, GpsPointerTag, end)
    case Ok(Some(w)) =>
      forall k :: k in w.pending ==>
        && w.pending[k].typeCode != AsciiType
        && w.pending[k].typeCode in DatatypeLengths
        && DatatypeLengths[w.pending[k].typeCode] == w.unitLen
    case _ => true
  }

  /** Where none of the quirks bites (a Motorola file, whose pointer tag
      is stored as the bytes the scan looks for, and matching units), the
      reader's reading and the intended one store the same record. */
  lemma TiffAgreesWhenUnitsMatch(t: seq<Byte>, order: Order, end: int)
    requires order == Motorola && UnitsMatch(t, order, end)
    ensures GpsFromTiff(t, order, end) == GpsFromTiffIntended(t, order, end)
  {
    match ReadDirectory(t, order, GpsPointerTag, end)
    case Err(_) =>
    case Ok(None) =>
    case Ok(Some(w)) =>
      ResolveAgreesWhenUnitsMatch(t, order, w.unitLen, SortedKeys(w.pending.Keys), w.pending, w.gps);
  }

  /** The same on a whole JPEG: `read_gps` returns what the intended reader
      returns on a Motorola file whenever the units match in its GPS
      directory. */
  lemma IntendedAgreesWhenUnitsMatch(s: seq<Byte>)
    requires ReadFrame(s).Ok? ==>
               var f := ReadFrame(s).value;
               f.order == Motorola && UnitsMatch(s[f.origin..], f.order, f.end - f.origin)
    ensures ReadGps(s) == ReadGpsIntended(s)
  {
    if ReadFrame(s).Ok? {
      var f := ReadFrame(s).value;
      TiffAgreesWhenUnitsMatch(s[f.origin..], f.order, f.end - f.origin);
    }
  }

  /** A TIFF body in Motorola order: IFD 0 at 8 holds only the GPS IFD
      pointer (to 26); the GPS IFD holds `latitude_ref` "N" inline and an
      `altitude` of 10465/1000 deferred to offset 56. It is put together
      from the pieces below, at offsets 0, 10, 22, 28, 40, 52 and 56. */
  const SampleTiff: seq<Byte> :=
    SampleHeader + SamplePointerEntry + SampleGpsCount + SampleLatitudeRef
    + SampleAltitude + SampleNoNextIfd + SampleAltitudeValue

  /** "MM\0*", IFD 0 at offset 8, one entry in IFD 0. */
  const SampleHeader: seq<Byte> := [0x4D, 0x4D, 0x00, 0x2A, 0x00, 0x00, 0x00, 0x08, 0x00, 0x01]
  /** Tag 0x8825, type 4, count 1, the GPS IFD at offset 26. */
  const SamplePointerEntry: seq<Byte> := [0x88, 0x25, 0x00, 0x04, 0x00, 0x00, 0x00, 0x01, 0x00, 0x00, 0x00, 0x1A]
  /** No IFD after IFD 0; two entries in the GPS IFD. */
  const SampleGpsCount: seq<Byte> := [0x00, 0x00, 0x00, 0x00, 0x00, 0x02]
  /** Tag 1 (`latitude_ref`), ASCII, count 2, "N\0" inline. */
  const SampleLatitudeRef: seq<Byte> := [0x00, 0x01, 0x00, 0x02, 0x00, 0x00, 0x00, 0x02, 0x4E, 0x00, 0x00, 0x00]
  /** Tag 6 (`altitude`), RATIONAL, count 1, stored at offset 56. */
  const SampleAltitude: seq<Byte> := [0x00, 0x06, 0x00, 0x05, 0x00, 0x00, 0x00, 0x01, 0x00, 0x00, 0x00, 0x38]
  const SampleNoNextIfd: seq<Byte> := [0x00, 0x00, 0x00, 0x00]
  /** 10465 / 1000, big-endian. */
  const SampleAltitudeValue: seq<Byte> := [0x00, 0x00, 0x28, 0xE1, 0x00, 0x00, 0x03, 0xE8]

  /** The JPEG head in front of `SampleTiff`: SOI, APP1 of length 72 and
      the "Exif\0\0" opener. */
  const SampleHead: seq<Byte> := [0xFF, 0xD8, 0xFF, 0xE1, 0x00, 0x48, 0x45, 0x78, 0x69, 0x66, 0x00, 0x00]

  /** The byte windows of `SampleTiff` the walk reads. */
  lemma SampleTiffWindows()
    ensures |SampleTiff| == 64
    ensures SampleTiff[..4] == MotorolaHeader
    ensures SampleTiff[4..6] == [0x00, 0x00] && SampleTiff[6..8] == [0x00, 0x08]
    ensures SampleTiff[8..10] == [0x00, 0x01] && SampleTiff[10..12] == GpsPointerTag
    ensures SampleTiff[18..22] == [0x00, 0x00, 0x00, 0x1A]
    ensures SampleTiff[26..28] == [0x00, 0x02]
    ensures SampleTiff[28..40] == SampleLatitudeRef
    ensures SampleTiff[40..52] == SampleAltitude
    ensures SampleTiff[56..64] == SampleAltitudeValue
  {
    var t := SampleTiff;
    assert t[..10] == SampleHeader;
    assert t[10..22] == SamplePointerEntry;
    assert t[22..28] == SampleGpsCount;
    assert t[28..40] == SampleLatitudeRef;
    assert t[40..52] == SampleAltitude;
    assert t[56..] == SampleAltitudeValue;
  }

  /** The window scan finds the pointer tag at offset 10. */
  lemma SamplePointer()
    ensures FindGpsPointer(SampleTiff, GpsPointerTag, 4, 64) == Ok(Some(12))
  {
    var t := SampleTiff;
    SampleTiffWindows();
    assert Peek(t, 10, 2) == GpsPointerTag;
    assert FindGpsPointer(t, GpsPointerTag, 10, 64) == Ok(Some(12));
    assert Peek(t, 8, 2) == [0x00, 0x01];
    assert FindGpsPointer(t, GpsPointerTag, 8, 64) == Ok(Some(12));
    assert Peek(t, 6, 2) == [0x00, 0x08];
    assert FindGpsPointer(t, GpsPointerTag, 6, 64) == Ok(Some(12));
    assert Peek(t, 4, 2) == [0x00, 0x00];
  }

  /** The `latitude_ref` entry as TIFF lays it out. */
  lemma SampleLatitudeRefEntry()
    ensures EntryAt(SampleTiff, Motorola, 28) == Entry(1, AsciiType, 2, [0x4E, 0x00, 0x00, 0x00])
  {
    var t := SampleTiff;
    SampleTiffWindows();
    var e := SampleLatitudeRef;
    assert t[28..30] == e[0..2] && t[30..32] == e[2..4] && t[32..36] == e[4..8] && t[36..40] == e[8..12];
    BigEndianOfLastByte(e[0..2]);
    BigEndianOfLastByte(e[2..4]);
    BigEndianOfLastByte(e[4..8]);
  }

  /** The `altitude` entry as TIFF lays it out. */
  lemma SampleAltitudeEntry()
    ensures EntryAt(SampleTiff, Motorola, 40) == Entry(6, RationalType, 1, [0x00, 0x00, 0x00, 0x38])
  {
    var t := SampleTiff;
    SampleTiffWindows();
    var a := SampleAltitude;
    assert t[40..42] == a[0..2] && t[42..44] == a[2..4] && t[44..48] == a[4..8] && t[48..52] == a[8..12];
    BigEndianOfLastByte(a[0..2]);
    BigEndianOfLastByte(a[2..4]);
    BigEndianOfLastByte(a[4..8]);
  }

  /** The entry walk: `latitude_ref` decoded inline, `altitude` deferred. */
  lemma SampleEntryWalk()
    ensures WalkEntries(SampleTiff, Motorola, 28, 2, EmptyWalk)
            == Ok((Walk(map["latitude_ref" := Text([0x4E])],
                        map[56 := Pending("altitude", 1, RationalType)], 8), 52))
  {
    var t := SampleTiff;
    SampleTiffWindows();
    SampleLatitudeRefEntry();
    SampleAltitudeEntry();
    var field: seq<Byte> := [0x4E, 0x00, 0x00, 0x00];
    assert field[..2] == [0x4E, 0x00];
    assert DropLast(field[..2]) == [0x4E];
    var w1 := Walk(map["latitude_ref" := Text([0x4E])], map[], 1);
    assert Apply(Motorola, EmptyWalk, EntryAt(t, Motorola, 28)) == Ok(w1);
    assert ReadEntry(t, Motorola, 28, EmptyWalk) == Ok((w1, 40));
    BigEndianOfLastByte([0x00, 0x00, 0x00, 0x38]);
    var w2 := Walk(w1.gps, map[56 := Pending("altitude", 1, RationalType)], 8);
    assert Apply(Motorola, w1, EntryAt(t, Motorola, 40)) == Ok(w2);
    assert ReadEntry(t, Motorola, 40, w1) == Ok((w2, 52));
    assert WalkEntries(t, Motorola, 40, 1, w1) == Ok((w2, 52));
  }

  /** The walk over the sample GPS IFD. */
  lemma SampleWalk()
    ensures ReadDirectory(SampleTiff, Motorola, GpsPointerTag, 64)
            == Ok(Some(Walk(map["latitude_ref" := Text([0x4E])],
                            map[56 := Pending("altitude", 1, RationalType)], 8)))
  {
    SamplePointer();
    SampleDirectoryPlace();
    ReadDirectoryFound(SampleTiff, Motorola, GpsPointerTag, 64, 12, 26, 2);
    SampleEntryWalk();
  }

  /** The stored GPS IFD offset and its entry count. */
  lemma SampleDirectoryPlace()
    ensures |SampleTiff| == 64
    ensures Val(Motorola, SampleTiff[12 + 6..12 + 10]) == 26
    ensures Val(Motorola, SampleTiff[26..26 + 2]) == 2
  {
    SampleTiffWindows();
    BigEndianOfLastByte([0x00, 0x00, 0x00, 0x1A]);
    BigEndianOfLastByte([0x00, 0x02]);
  }

  /** The APP1 marker follows SOI directly in the sample JPEG. */
  lemma SampleApp1()
    ensures FindApp1(SampleHead + SampleTiff) == Ok(4)
  {
    var s := SampleHead + SampleTiff;
    assert s[..4] == [0xFF, 0xD8, 0xFF, 0xE1];
    assert Peek(s, 0, 2) == SOI && Peek(s, 2, 2) == APP1;
  }

  /** The segment walk over the sample JPEG. */
  lemma SampleFrame()
    ensures ReadFrame(SampleHead + SampleTiff) == Ok(Frame(Motorola, 12, 76))
    ensures (SampleHead + SampleTiff)[12..] == SampleTiff
  {
    var s := SampleHead + SampleTiff;
    SampleTiffWindows();
    SampleApp1();
    assert s[12..] == SampleTiff;
    assert s[4..6] == [0x00, 0x48];
    BigEndianOfLastByte([0x00, 0x48]);
    assert Take(s, 4, 2) == Ok([0x00, 0x48]);
    assert Take(s, 6, 6).Ok?;
    assert Peek(s, 12, 4) == MotorolaHeader;
  }

  /** The deferred altitude, read in 8-byte units at offset 56. */
  lemma SampleAltitudeRead()
    ensures ReadPending(SampleTiff, Motorola, 8, 56, Pending("altitude", 1, RationalType))
            == Ok(Fraction(10465, 1000))
  {
    SampleTiffWindows();
    ReadUnitsFirst(SampleTiff, 56, 8, 1);
    RationalExample();
  }

  /** The GPS part of the sample: both fields, the altitude from the
      deferred pass. */
  lemma SampleRecord()
    ensures GpsFromTiff(SampleTiff, Motorola, 64)
            == Ok(map["latitude_ref" := Text([0x4E]), "altitude" := Fraction(10465, 1000)])
  {
    SampleWalk();
    var pending := map[56 := Pending("altitude", 1, RationalType)];
    var gps := map["latitude_ref" := Text([0x4E])];
    assert pending.Keys == {56};
    assert Least({56}) == 56;
    assert SortedKeys(pending.Keys) == [56];
    SampleAltitudeRead();
    assert Resolve(SampleTiff, Motorola, 8, [56], pending, gps)
           == Resolve(SampleTiff, Motorola, 8, [], pending, gps["altitude" := Fraction(10465, 1000)]);
  }

  /** `read_gps` on the sample JPEG returns both fields. */
  lemma ReadsSampleJpeg()
    ensures ReadGps(SampleHead + SampleTiff)
            == Ok(map["latitude_ref" := Text([0x4E]), "altitude" := Fraction(10465, 1000)])
  {
    SampleFrame();
    SampleRecord();
  }
}

=== FILE: results.dfy ===
/** Failure-carrying results of the GPS reader.

    The reader either returns a record or stops at the first fatal
    condition; every such condition of ExifGPSReader.read_gps is one
    constructor of `Error`.
 */
module Results {

  /** Why a read stopped. */
  datatype Error =
    | MissingStartOfImage        // ExifFormatException: first two bytes are not FF D8
    | MissingApp1                // ExifFormatException: APP1 marker not where expected
    | UnknownEndianness          // ExifFormatException: header is neither "II*\0" nor "MM\0*"
    | UnknownDatatype(code: nat) // KeyError: datatype code outside the length table
    | MissingValue               // IndexError: fewer raw values than the entry's count
    | Truncated                  // the input ended inside bytes the reader decodes or skips

  /** The errors a read can meet once the byte order is known. */
  predicate IsDirectoryError(e: Error) {
    e.UnknownDatatype? || e.MissingValue? || e.Truncated?
  }

  datatype Option<+T> = None | Some(value: T)

  /** Either a value or the error that stopped the read. */
  datatype Result<+T> = Ok(value: T) | Err(error: Error)
}

=== FILE: segments.dfy ===
/** The JPEG marker walk at the head of `read_gps`: start of image, an
    optional APP0 segment that is skipped, the APP1 segment whose end is
    remembered, the six-byte "Exif\0\0" opener, and the four-byte TIFF
    header that fixes the byte order.

    All positions here are absolute positions in the input.
 */
module Segments {
  import opened Endian
  import opened Results
  import opened Stream

  const SOI: seq<Byte> := [0xFF, 0xD8]
  const APP0: seq<Byte> := [0xFF, 0xE0]
  const APP1: seq<Byte> := [0xFF, 0xE1]
  const IntelHeader: seq<Byte> := [0x49, 0x49, 0x2A, 0x00]     // "II*\0"
  const MotorolaHeader: seq<Byte> := [0x4D, 0x4D, 0x00, 0x2A]  // "MM\0*"

  /** Where the EXIF data lies: its byte order, the TIFF header origin
      (`exif_start`, the base of every stored offset) and the declared end
      of the APP1 segment (`end_of_app1`). */
  datatype Frame = Frame(order: Order, origin: nat, end: nat)

  /** The marker check of the segment after the optional APP0 one. */
  function App1Field(s: seq<Byte>, at: nat): (r: Result<nat>)
    ensures r.Ok? <==> Peek(s, at, 2) == APP1
    ensures r.Ok? ==> r.value == at + 2 && HoldsAt(s, at, APP1)
    ensures r.Err? ==> r.error == MissingApp1
  {
    if Peek(s, at, 2) == APP1 then Ok(at + 2) else Err(MissingApp1)
  }

  /** Checks the start-of-image marker, skips an APP0 segment if there is
      one, checks the APP1 marker and returns the position of the APP1
      length field. The APP0 skip lands at the position of its length field
      plus the big-endian length, which counts the length field itself. */
  function FindApp1(s: seq<Byte>): (r: Result<nat>)
    ensures r.Err? && r.error == MissingStartOfImage <==> Peek(s, 0, 2) != SOI
    ensures r.Err? && r.error == Truncated <==>
              Peek(s, 0, 2) == SOI && Peek(s, 2, 2) == APP0 && |s| < 6
    ensures r.Ok? ==> HoldsAt(s, 0, SOI) && 4 <= r.value <= |s|
    ensures r.Ok? ==> HoldsAt(s, r.value - 2, APP1)
    ensures r.Ok? && HoldsAt(s, 2, APP0) ==> |s| >= 6 && r.value == 4 + BigEndian(Peek(s, 4, 2)) + 2
    ensures r.Ok? && !HoldsAt(s, 2, APP0) ==> r.value == 4
    ensures r.Err? ==> r.error in {MissingStartOfImage, MissingApp1, Truncated}
  {
    if Peek(s, 0, 2) != SOI then Err(MissingStartOfImage)
    else if Peek(s, 2, 2) == APP0 then
      match Take(s, 4, 2)
      case Err(e) => Err(e)
      case Ok(len) => App1Field(s, 4 + BigEndian(len))
    else App1Field(s, 2)
  }

  /** The byte order a TIFF header announces. */
  function ByteOrderOf(header: seq<Byte>): (r: Result<Order>)
    ensures r == Ok(Intel) <==> header == IntelHeader
    ensures r == Ok(Motorola) <==> header == MotorolaHeader
    ensures r.Err? ==> r.error == UnknownEndianness
  {
    if header == IntelHeader then Ok(Intel)
    else if header == MotorolaHeader then Ok(Motorola)
    else Err(UnknownEndianness)
  }

  /** The segment walk of `read_gps` up to and including the byte-order
      check. `end_of_app1` is the position of the APP1 length field plus the
      length; `exif_start` is 2 + 6 bytes further on than that field. */
  function ReadFrame(s: seq<Byte>): (r: Result<Frame>)
    ensures r.Ok? ==> 12 <= r.value.origin <= |s| - 4
    ensures r.Ok? ==> FindApp1(s).Ok? && FindApp1(s).value + 8 == r.value.origin
    ensures r.Ok? && FindApp1(s).Ok? ==> r.value.end == FindApp1(s).value + BigEndian(Peek(s, FindApp1(s).value, 2))
    ensures r.Ok? ==> ByteOrderOf(Peek(s, r.value.origin, 4)) == Ok(r.value.order)
    ensures FindApp1(s).Err? ==> r == Err(FindApp1(s).error)
    ensures FindApp1(s).Ok? && FindApp1(s).value + 8 <= |s| ==>
              (r.Err? <==> ByteOrderOf(Peek(s, FindApp1(s).value + 8, 4)).Err?)
    ensures FindApp1(s).Ok? && FindApp1(s).value + 8 > |s| ==> r == Err(Truncated)
    ensures FindApp1(s).Ok? && FindApp1(s).value + 8 <= |s| && r.Err? ==> r.error == UnknownEndianness
    ensures r == Err(MissingStartOfImage) <==> Peek(s, 0, 2) != SOI
    ensures r == Err(MissingApp1) <==> FindApp1(s) == Err(MissingApp1)
    ensures r == Err(UnknownEndianness) <==>
              && FindApp1(s).Ok?
              && FindApp1(s).value + 8 <= |s|
              && ByteOrderOf(Peek(s, FindApp1(s).value + 8, 4)).Err?
  {
    match FindApp1(s)
    case Err(e) => Err(e)
    case Ok(lengthAt) => FrameAt(s, lengthAt)
  }

  /** The frame read from the APP1 length field at `lengthAt` on. */
  function FrameAt(s: seq<Byte>, lengthAt: nat): (r: Result<Frame>)
    ensures r.Ok? ==> r.value.origin == lengthAt + 8 <= |s| - 4
    ensures r.Ok? ==> r.value.end == lengthAt + BigEndian(Peek(s, lengthAt, 2))
    ensures r.Ok? ==> ByteOrderOf(Peek(s, r.value.origin, 4)) == Ok(r.value.order)
    ensures lengthAt + 8 <= |s| ==> (r.Err? <==> ByteOrderOf(Peek(s, lengthAt + 8, 4)).Err?)
    ensures lengthAt + 8 > |s| ==> r == Err(Truncated)
    ensures lengthAt + 8 <= |s| && r.Err? ==> r.error == UnknownEndianness
  {
    match Take(s, lengthAt, 2)
    case Err(e) => Err(e)
    case Ok(len) =>
      var end := lengthAt + BigEndian(len);
      match Take(s, lengthAt + 2, 6)   // "Exif\0\0"
      case Err(e) => Err(e)
      case Ok(_) =>
        var origin := lengthAt + 8;
        match ByteOrderOf(Peek(s, origin, 4))
        case Err(e) => Err(e)
        case Ok(order) => Ok(Frame(order, origin, end))
  }

  /** Reads at `at + k` see what reads at `k` of the suffix from `at` see. */
  lemma SuffixReads(s: seq<Byte>, at: nat, k: nat, n: nat)
    requires at <= |s|
    ensures Peek(s, at + k, n) == Peek(s[at..], k, n)
    ensures Take(s, at + k, n) == Take(s[at..], k, n)
  {
    if at + k + n <= |s| {
      assert s[at + k..at + k + n] == s[at..][k..k + n];
    } else if at + k <= |s| {
      assert s[at + k..] == s[at..][k..];
    }
  }

  /** The frame depends only on the input from the APP1 length field on;
      its positions move with that field. */
  lemma FrameAtSuffix(s: seq<Byte>, lengthAt: nat)
    requires lengthAt <= |s|
    ensures match FrameAt(s[lengthAt..], 0)
            case Ok(f) => FrameAt(s, lengthAt) == Ok(Frame(f.order, f.origin + lengthAt, f.end + lengthAt))
            case Err(e) => FrameAt(s, lengthAt) == Err(e)
  {
    SuffixReads(s, lengthAt, 0, 2);
    SuffixReads(s, lengthAt, 2, 6);
    SuffixReads(s, lengthAt, 8, 4);
  }
}

=== FILE: stream.dfy ===
/** The byte stream as a sequence with a cursor.

    `stream.read(n)` at position `pos` is a slice of the input; `seek` and
    `tell` become plain cursor values threaded through the reader. Two
    readings of `read` are used: `Peek` for the reads the reader only
    compares against a marker (a short read there simply fails to match,
    as in the reader) and `Take` for reads whose bytes are decoded or
    skipped, which fail with `Truncated` when the input runs out.
 */
module Stream {
  import opened Endian
  import opened Results

  /** A read of `n` bytes that must not run past the end of the input
      (reading nothing succeeds anywhere, as `read(0)` does). */
  function Take(s: seq<Byte>, pos: nat, n: nat): (r: Result<seq<Byte>>)
    ensures r.Ok? <==> n == 0 || pos + n <= |s|
    ensures r.Ok? ==> |r.value| == n
    ensures r.Ok? ==> forall i :: 0 <= i < n ==> r.value[i] == s[pos + i]
    ensures r.Err? ==> r.error == Truncated
  {
    if pos + n <= |s| then Ok(s[pos..pos + n])
    else if n == 0 then Ok([])
    else Err(Truncated)
  }

  /** A read of up to `n` bytes: shorter when the input ends first. */
  function Peek(s: seq<Byte>, pos: nat, n: nat): (r: seq<Byte>)
    ensures |r| <= n
    ensures pos + n <= |s| <==> pos <= |s| && |r| == n
    ensures forall i :: 0 <= i < |r| ==> pos + i < |s| && r[i] == s[pos + i]
  {
    if pos + n <= |s| then s[pos..pos + n]
    else if pos <= |s| then s[pos..]
    else []
  }

  /** The input holds the bytes `bs` from position `at` on. */
  predicate HoldsAt(s: seq<Byte>, at: int, bs: seq<Byte>) {
    0 <= at && at + |bs| <= |s| && s[at..at + |bs|] == bs
  }

  /** A Python slice `bs[i:j]` with non-negative bounds: both ends clamp. */
  function Slice(bs: seq<Byte>, i: nat, j: nat): (r: seq<Byte>)
    ensures |r| <= j - i || (j < i && |r| == 0)
    ensures j <= |bs| && i <= j ==> r == bs[i..j]
    ensures i <= j && i <= |bs| ==> |r| == (if j <= |bs| then j else |bs|) - i
    ensures forall k :: 0 <= k < |r| ==> i + k < |bs| && r[k] == bs[i + k]
  {
    var hi := if j <= |bs| then j else |bs|;
    var lo := if i <= hi then i else hi;
    bs[lo..hi]
  }

  function Flatten(chunks: seq<seq<Byte>>): (r: seq<Byte>)
  {
    if |chunks| == 0 then [] else chunks[0] + Flatten(chunks[1..])
  }

  /** The bytes that `count` reads of `unit` bytes each consume, counted
      read by read; `SpanIsProduct` shows it is `unit * count`. */
  function Span(unit: nat, count: nat): nat {
    if count == 0 then 0 else unit + Span(unit, count - 1)
  }

  lemma {:induction false} SpanIsProduct(unit: nat, count: nat)
    ensures Span(unit, count) == unit * count
  {
    if count > 0 {
      SpanIsProduct(unit, count - 1);
      assert unit * count == unit + unit * (count - 1);
    }
  }

  /** `[stream.read(unit) for i in range(count)]`: `count` consecutive
      reads of `unit` bytes each. */
  function ReadUnits(s: seq<Byte>, pos: nat, unit: nat, count: nat): (r: Result<seq<seq<Byte>>>)
    decreases count
    ensures r.Ok? <==> Span(unit, count) == 0 || pos + Span(unit, count) <= |s|
    ensures r.Err? ==> r.error == Truncated
    ensures r.Ok? ==> |r.value| == count
    ensures r.Ok? ==> forall i :: 0 <= i < count ==> |r.value[i]| == unit
    ensures r.Ok? && Span(unit, count) > 0 ==> Flatten(r.value) == s[pos..pos + Span(unit, count)]
  {
    if count == 0 then Ok([])
    else
      match Take(s, pos, unit)
      case Err(e) => Err(e)
      case Ok(first) =>
        match ReadUnits(s, pos + unit, unit, count - 1)
        case Err(e) => Err(e)
        case Ok(rest) =>
          var chunks := [first] + rest;
          assert chunks[1..] == rest;
          var later := Span(unit, count - 1);
          assert later > 0 ==> s[pos..pos + unit + later] == s[pos..pos + unit] + s[pos + unit..pos + unit + later];
          Ok(chunks)
  }

  /** A read that succeeds returns what a read of up to that many bytes does. */
  lemma TakeIsPeek(s: seq<Byte>, pos: nat, n: nat)
    requires Take(s, pos, n).Ok?
    ensures Take(s, pos, n).value == Peek(s, pos, n)
  {
  }

  /** A successful run of reads is its first read followed by the rest:
      read `i` of the run is read `i - 1` of the rest, which starts `unit`
      bytes later. */
  lemma ReadUnitsStep(s: seq<Byte>, pos: nat, unit: nat, count: nat, i: nat)
    requires ReadUnits(s, pos, unit, count).Ok? && i < count
    ensures i == 0 ==> ReadUnits(s, pos, unit, count).value[0] == Peek(s, pos, unit)
    ensures i > 0 ==> && ReadUnits(s, pos + unit, unit, count - 1).Ok?
                      && ReadUnits(s, pos, unit, count).value[i] == ReadUnits(s, pos + unit, unit, count - 1).value[i - 1]
                      && pos + unit + Span(unit, i - 1) == pos + Span(unit, i)
  {
    TakeIsPeek(s, pos, unit);
  }

  /** Read `i` of `count` consecutive reads returns the `unit` bytes that
      start `Span(unit, i)` bytes after `pos`. */
  lemma {:induction false} ReadUnitsChunk(s: seq<Byte>, pos: nat, unit: nat, count: nat, i: nat)
    requires ReadUnits(s, pos, unit, count).Ok? && i < count
    decreases count
    ensures ReadUnits(s, pos, unit, count).value[i] == Peek(s, pos + Span(unit, i), unit)
  {
    ReadUnitsStep(s, pos, unit, count, i);
    if i > 0 {
      ReadUnitsChunk(s, pos + unit, unit, count - 1, i - 1);
    }
  }
}

=== FILE: values.dfy ===
/** The tag and datatype tables and the value decoders `_get_value` and
    `_rational_val`.

    A rational is kept as its numerator and denominator; `_rational_val`
    divides them as floats.
 */
module Values {
  import opened Endian
  import opened Results
  import opened Stream

  /** Datatype codes the decoder tells apart. */
  const AsciiType: nat := 2
  const RationalType: nat := 5

  /** Bytes per unit of each datatype code the reader knows; any other code
      is a KeyError when a recognised tag uses it. */
  const DatatypeLengths: map<nat, nat> := map[0 := 0, 1 := 1, 2 := 1, 5 := 8]

  /** GPS directory tag numbers and the record keys they are stored under. */
  const GpsTags: map<nat, string> := map[
    1 := "latitude_ref", 2 := "latitude", 3 := "longitude_ref",
    4 := "longitude", 5 := "altitude_ref", 6 := "altitude",
    7 := "timestamp", 16 := "direction_ref", 17 := "direction"]

  /** The shapes a decoded field can take. */
  datatype Value =
    | Integer(n: nat)               // a BYTE unit (or a code-0 unit) decoded in the active order
    | Fraction(num: nat, den: nat)  // a RATIONAL unit: numerator / denominator
    | Text(chars: seq<Byte>)        // ASCII with its final byte dropped
    | Raw(bytes: seq<Byte>)         // a list element the decoder left unconverted
    | List(items: seq<Value>)       // several values, in read order

  /** Every record key is one of the nine GPS field names. */
  predicate IsTagName(name: string) {
    name in GpsTags.Values
  }

  /** `_rational_val`: numerator from bytes 0-3, denominator from bytes 4-7. */
  function RationalVal(order: Order, bs: seq<Byte>): (v: Value)
    ensures v.Fraction?
    ensures v.num < Pow256(4) && v.den < Pow256(4)
    ensures |bs| == 8 ==> v.num == Val(order, bs[..4]) && v.den == Val(order, bs[4..])
  {
    assert |bs| == 8 ==> bs[4..8] == bs[4..];
    Fraction(Val(order, Slice(bs, 0, 4)), Val(order, Slice(bs, 4, 8)))
  }

  /** The per-value converter `_get_value` picks: `_rational_val` for
      RATIONAL, the byte-order decoder for every other code. */
  function Convert(order: Order, typeCode: nat, bs: seq<Byte>): (v: Value)
    ensures typeCode == RationalType ==> v.Fraction?
    ensures typeCode != RationalType ==> v.Integer? && v.n < Pow256(|bs|)
  {
    if typeCode == RationalType then RationalVal(order, bs) else Integer(Val(order, bs))
  }

  /** Python's `bs[0:-1]`: everything but the final byte. */
  function DropLast(bs: seq<Byte>): (r: seq<Byte>)
    ensures |bs| > 0 ==> r + [bs[|bs| - 1]] == bs
    ensures |bs| == 0 ==> r == []
  {
    if |bs| == 0 then [] else bs[..|bs| - 1]
  }

  /** `_get_value(data, num_values, datatype)`. ASCII keeps the first raw
      string minus its last byte; any other datatype converts the first
      `count` raw strings and returns a single value when `count` is 1 and
      the (partly converted) list otherwise. */
  function GetValue(order: Order, data: seq<seq<Byte>>, count: nat, typeCode: nat): (r: Result<Value>)
    ensures r.Err? ==> r.error == MissingValue
    ensures typeCode == AsciiType ==> (r.Ok? <==> |data| > 0)
    ensures typeCode == AsciiType && r.Ok? ==>
              r.value.Text? && r.value.chars == DropLast(data[0])
    ensures typeCode != AsciiType ==> (r.Ok? <==> count <= |data|)
    ensures typeCode != AsciiType && r.Ok? && count == 1 ==>
              !r.value.List? && r.value == Convert(order, typeCode, data[0])
    ensures typeCode != AsciiType && r.Ok? && count != 1 ==>
              && r.value.List?
              && |r.value.items| == |data|
              && (forall i :: 0 <= i < count ==> r.value.items[i] == Convert(order, typeCode, data[i]))
              && (forall i :: count <= i < |data| ==> r.value.items[i] == Raw(data[i]))
  {
    if typeCode == AsciiType then
      if |data| == 0 then Err(MissingValue) else Ok(Text(DropLast(data[0])))
    else if count > |data| then Err(MissingValue)
    else
      var items := seq(|data|, i requires 0 <= i < |data| =>
                         if i < count then Convert(order, typeCode, data[i]) else Raw(data[i]));
      if count == 1 then Ok(items[0]) else Ok(List(items))
  }

  /** What an entry whose value fits in its 4-byte field decodes to: the
      reader wraps the first `count * length` bytes in a one-element list,
      which is right for ASCII and for `count == 1` only. */
  lemma InlineShape(order: Order, field: seq<Byte>, count: nat, typeCode: nat)
    requires |field| == 4
    requires typeCode in DatatypeLengths && DatatypeLengths[typeCode] * count <= 4
    ensures var r := GetValue(order, [field[..DatatypeLengths[typeCode] * count]], count, typeCode);
      && (typeCode == AsciiType && count > 0 ==> r == Ok(Text(field[..count - 1])))
      && (typeCode == AsciiType && count == 0 ==> r == Ok(Text([])))
      && (typeCode == 1 && count == 1 ==> r == Ok(Integer(field[0])))
      && (typeCode == 0 && count == 1 ==> r == Ok(Integer(0)))
      && (typeCode != AsciiType && count == 0 ==> r == Ok(List([Raw([])])))
      && (typeCode != AsciiType && count >= 2 ==> r == Err(MissingValue))
  {
    var len := DatatypeLengths[typeCode];
    if typeCode == AsciiType {
      assert len == 1;
      assert len * count == count;
      if count > 0 {
        assert DropLast(field[..count]) == field[..count - 1];
      }
    } else if typeCode == RationalType {
      assert len == 8;
      assert count == 0;
      assert field[..len * count] == [];
      assert GetValue(order, [[]], 0, typeCode).value.items == [Raw([])];
    } else if typeCode == 1 {
      assert len == 1;
      assert len * count == count;
      var slice := field[..count];
      if count == 0 {
        assert slice == [];
        assert GetValue(order, [[]], 0, typeCode).value.items == [Raw([])];
      } else if count == 1 {
        assert slice == [field[0]];
        assert BigEndian(slice) == field[0] by { assert slice[..0] == []; }
        assert LittleEndian(slice) == field[0] by { assert slice[1..] == []; }
      }
    } else {
      assert typeCode == 0 && len == 0;
      assert len * count == 0;
      assert field[..len * count] == [];
      assert count == 0 ==> GetValue(order, [[]], 0, typeCode).value.items == [Raw([])];
    }
  }

  /** A rational written as two 4-byte integers in either order decodes
      back to its numerator and denominator. */
  lemma RationalRoundTrip(order: Order, num: nat, den: nat)
    requires num < Pow256(4) && den < Pow256(4)
    ensures order == Motorola ==>
              RationalVal(order, BigEndianBytes(num, 4) + BigEndianBytes(den, 4)) == Fraction(num, den)
    ensures order == Intel ==>
              RationalVal(order, LittleEndianBytes(num, 4) + LittleEndianBytes(den, 4)) == Fraction(num, den)
  {
    if order == Motorola {
      var bs := BigEndianBytes(num, 4) + BigEndianBytes(den, 4);
      assert bs[..4] == BigEndianBytes(num, 4);
      assert bs[4..] == BigEndianBytes(den, 4);
      BigEndianRoundTrip(num, 4);
      BigEndianRoundTrip(den, 4);
    } else {
      var bs := LittleEndianBytes(num, 4) + LittleEndianBytes(den, 4);
      assert bs[..4] == LittleEndianBytes(num, 4);
      assert bs[4..] == LittleEndianBytes(den, 4);
      LittleEndianRoundTrip(num, 4);
      LittleEndianRoundTrip(den, 4);
    }
  }

  /** The altitude of the test fixture: 10465 / 1000 in Motorola order. */
  lemma RationalExample()
    ensures RationalVal(Motorola, [0x00, 0x00, 0x28, 0xE1, 0x00, 0x00, 0x03, 0xE8]) == Fraction(10465, 1000)
  {
    var bs: seq<Byte> := [0x00, 0x00, 0x28, 0xE1, 0x00, 0x00, 0x03, 0xE8];
    assert bs == BigEndianBytes(10465, 4) + BigEndianBytes(1000, 4);
    RationalRoundTrip(Motorola, 10465, 1000);
  }
}
